=== FILE: README.md ===
# Staccato work-stealing core in Dafny

This project models three pieces of sequential logic from the Staccato
task scheduler and proves properties about them:

- **The deque family of `deque.h`**:
  - `circular_array`, a power-of-two ring buffer;
  - `u_deque`, the Chase-Lev dynamic circular work-stealing deque;
  - two baselines with the same interface: `b_deque`, a bounded array with a stamped `top`, and `std_deque`, a `std::deque` behind a mutex.

  Each backend has an abstraction function onto one reference deque (module `DequeSpec`). That is a sequence from oldest (`top`) to newest (`bottom`). The owner pushes and pops at the bottom, and a thief takes from the top. For `u_deque` and `std_deque` as written, and for `b_deque` with its drained-deque reset corrected, a run without races is shown to match the reference operation for operation. Every concurrent operation is one atomic step. The outcome of a compare-and-swap or `try_lock` that can race is a boolean input.
- **The topology builder of `include/topology.hpp`**:
  - `get_cpu_id`;
  - `build_map`, which hands out worker ids over (hardware thread, socket, core);
  - `link_thieves` with `link_thief`, `set_thief_at_next_thread` and `set_thief_at_next_core`, which build the victim relation over a map keyed by cpu id.

  The machine shape is a parameter. `std::map` iteration is a walk over the cpu ids in ascending order.
- **The deque-chain bookkeeping of `include/worker.hpp`**:
  - the constructor's chain of `taskgraph_height + 1` deques;
  - `set_victim`'s depth-by-depth pairing with the victim's chain;
  - `grow_tail`;
  - the navigation of `steal_loop`;
  - `steal_task`;
  - the exit condition of `local_loop`.

  Deques live in an arena (a sequence of nodes), and pointers are indices into it. What `task_deque::take` and `steal` report is an input. Running a task and `return_stolen` are events in the result.

Modules:

| module | file | contents |
|---|---|---|
| `Common` | common.dfy | `Option`, `Pow2`, multiplication by repeated addition, arithmetic lemmas |
| `CircularArray` | circular_array.dfy | `circular_array` |
| `DequeSpec` | deque_spec.dfy | the reference deque, runs, conservation |
| `ChaseLev` | chase_lev.dfy | `u_deque` |
| `BoundedDeque` | bounded_deque.dfy | `b_deque` |
| `LockedDeque` | locked_deque.dfy | `std_deque` |
| `TopologyMap` | topology_map.dfy | `get_cpu_id`, `build_map` |
| `TopologyLinks` | topology_links.dfy | `link_thieves` and its helpers, the constructor |
| `TopologyExample` | topology_example.dfy | a six-cpu machine evaluated turn by turn |
| `WorkerChain` | worker_chain.dfy | the worker constructor, `set_victim`, `grow_tail` |
| `WorkerLoops` | worker_loops.dfy | `steal_loop`, `steal_task`, `local_loop` |

In four places the code does not do what it evidently intends. The model follows the code in each case, and each is a row under "## Findings":

1. After losing the single-element race, the Chase-Lev owner sets `bottom` to the old `top` + 2. Chase and Lev's algorithm sets it to the old `top` + 1, which leaves the deque empty.
2. On hardware threads above 0, `build_map` numbers cores downward, but `set_thief_at_next_core` searches upward. Two workers can then become each other's victim.
3. `grow_tail` pairs each new deque one level too deep, although `set_victim` pairs the two chains depth by depth.
4. `b_deque` has two defects of its own: `empty()` is inverted, and a deque drained by thieves is revived. The Arora-Blumofe-Plaxton deque it follows resets `bottom` to 0 in that case.

`b_deque::pop_bottom` takes the last task with `compare_exchange_weak`, which may fail spuriously with no thief involved. The owner then returns NULL and the task is lost. The model's `lost` flag covers both a thief's win and a spurious failure. The Arora-Blumofe-Plaxton deque uses a strong compare-and-swap here.

The parameter name `max_thieves` suggests a bound on each worker's thieves. The code allows two when the cross-socket link succeeds, because it sets `left = 1` after that link (topology.hpp:152-156). `TopologyLinks.LinkWorkerBounded` states the bound the code actually keeps.

## Model

| member | source | states |
|---|---|---|
| CircularArray.Get | deque.h:180-182 | The model of `get`: the slot at i modulo the capacity. Its contract is stated by `CircularArray.Put` (get after put, every other residue unchanged) and `CircularArray.Resize`. |
| CircularArray.New | deque.h:172-175 | A new ring of log-size n has exactly 2^n slots, and none of them has been written. |
| CircularArray.Put | deque.h:185-187 | After `put(i, x)`, `get(i)` returns x, and every index that differs from i modulo the capacity reads as before. The size is unchanged. |
| CircularArray.CopyRange | deque.h:192-193 | The copy loop of `resize`: every index of [lo, hi) reads back what the source held. Indices in [hi - capacity, lo) keep the destination's value. |
| CircularArray.Resize | deque.h:189-196 | The result has log-size one larger and twice the capacity. For every i in [top, bottom) it returns what the old ring did, provided bottom - top fits the new capacity. |
| ChaseLev.Init | deque.h:208-212 | A new deque is empty and has a ring of 128 slots. |
| ChaseLev.Empty | deque.h:214-219 | `empty()` holds exactly when the logical contents [top, bottom) are empty. |
| ChaseLev.PushBottom | deque.h:221-236 | `top` is unchanged and `bottom` grows by one. The contents gain x at the bottom, and 0 <= bottom - top < capacity still holds. The ring doubles exactly when bottom - top >= capacity - 1 and otherwise keeps its size. |
| ChaseLev.RoomFor | deque.h:226-231 | The ring `push_bottom` stores into keeps every live task and has room for one more. It is one size larger exactly when a single free slot was left. |
| ChaseLev.PopBottom | deque.h:238-264 | As written, on an empty deque it returns NULL and changes nothing. With more than one task it returns the newest and keeps `top`. On the last task, a won CAS returns it with top == bottom == old top + 1. A lost CAS returns NULL with top = t + 1 and bottom = t + 2. |
| ChaseLev.PopBottomUncontended | deque.h:238-264 | With no thief racing, `pop_bottom` removes and returns the newest task, as the reference deque's bottom pop does, and keeps the deque valid. |
| ChaseLev.PopTop | deque.h:266-283 | On an empty deque or a failed CAS it returns NULL and changes nothing. Otherwise it returns the oldest task, advances `top` by one and keeps `bottom`. |
| ChaseLev.Apply | deque.h:221-283 | Each uncontended owner or thief operation does to the logical contents what the reference deque's step does, and returns the same item. |
| ChaseLev.RunU | deque.h:221-283 | Every uncontended run of operations yields the same outputs and the same final contents as the reference deque. |
| ChaseLev.Conservation | deque.h:221-283 | No loss and no duplication in an uncontended run. Tasks initially present plus tasks pushed equal, as multisets, tasks still present plus tasks handed out. |
| ChaseLev.PushThenPop | deque.h:221-264 | Sequential LIFO: `push_bottom(x)` then `pop_bottom()` returns x and restores the logical contents. |
| ChaseLev.PushAll | deque.h:221-236 | Pushing xs in order appends xs to the contents and leaves `top` alone. |
| ChaseLev.StealTakesOldest | deque.h:266-283 | After xs is pushed onto any valid deque, a steal returns the oldest task present, the first of the old contents followed by xs, and leaves the rest in order. On a deque that starts empty, this is xs[0]. |
| ChaseLev.PopBottomFixed | deque.h:256-263 | The corrected single-element race (reset from the loaded `top`). Whatever the race outcome, the deque stays valid, and a lost race leaves it empty with a NULL result. Otherwise the pop is the reference bottom pop. |
| ChaseLev.RaceHasOneWinner | deque.h:256-283 | On a one-task deque, exactly one of the owner's corrected `pop_bottom` and a thief's `pop_top` obtains the task, and the deque ends empty. |
| ChaseLev.AsWrittenLostRaceDuplicates | deque.h:256-263 | Push a, push b, pop b, then lose the race for a to a thief: the next owner pop returns b a second time. |
| BoundedDeque.Init | deque.h:89-95 | A new deque is empty with stamp 0. |
| BoundedDeque.Empty | deque.h:155-158 | As written, `empty()` is true exactly when the deque is not empty. |
| BoundedDeque.EmptyFixed | deque.h:155-158 | The corrected comparison is true exactly when the deque is empty. |
| BoundedDeque.PushBottom | deque.h:143-153 | Appends x at the bottom, advances `bottom` by one and keeps `top`. |
| BoundedDeque.PopTop | deque.h:102-117 | On an empty deque or a failed (possibly spurious) CAS it returns NULL and changes nothing. Otherwise it returns the oldest task and advances both `top.val` and the stamp by one. |
| BoundedDeque.PopBottom | deque.h:119-141 | As written: NULL when `bottom` is 0. With more than one task it returns the newest. On the last task it resets to `top` {0, stamp + 1} and `bottom` 0. It returns the task unless the weak CAS failed, either to a thief or spuriously; a spurious failure drops the task. On a deque thieves drained it resets `top` but leaves `bottom` one lower. |
| BoundedDeque.PopBottomFixed | deque.h:119-141 | The corrected pop stays valid and is the reference bottom pop unless its CAS on the last task fails, to a thief or spuriously. It then returns NULL and leaves the deque empty, so a spurious failure still drops the task. Whenever the result is empty, `bottom` is 0 or nothing changed. |
| BoundedDeque.Apply | deque.h:102-153 | Each uncontended operation of the corrected deque is the reference deque's step. Only a push needs a free slot; both pops are defined on a full array. |
| BoundedDeque.RunB | deque.h:102-153 | Uncontended, every run whose pushes each find a free slot (`Fits`) matches the reference deque's outputs and final contents. The total length of the run is not bounded. |
| BoundedDeque.PushPopsFit | deque.h:119-153 | From a deque with `bottom` at 0, any number of push/pop rounds fits the array, because each corrected pop that empties the deque returns `bottom` to 0. |
| BoundedDeque.PopsFitWhenFull | deque.h:102-141 | On a full array (`bottom` = 30000) both pops are defined, and a steal returns the oldest task. |
| BoundedDeque.AsWrittenDrainedDuplicates | deque.h:119-141 | Push a, push b, and let two steals take a and b. The next owner pop returns NULL, and the pop after it returns a a second time. |
| LockedDeque.Empty | deque.h:74-78 | `empty()` holds exactly when the logical contents are empty. |
| LockedDeque.PushBottom | deque.h:62-72 | `push_front` appends x at the logical bottom, and x becomes the front. |
| LockedDeque.PopBottom | deque.h:27-42 | NULL on an empty deque, otherwise the newest task (the front); the reference bottom pop. |
| LockedDeque.PopTop | deque.h:44-60 | NULL with no change when `try_lock` fails; otherwise the reference top pop (the back, the oldest task). |
| LockedDeque.Apply | deque.h:27-72 | Each operation with the lock available is the reference step. |
| LockedDeque.RunS | deque.h:27-78 | Whenever every `try_lock` succeeds, every run matches the reference deque. |
| TopologyMap.GetCpuId | include/topology.hpp:228-235 | The model of `get_cpu_id`: thread-major, then socket, then core. Its contract is stated by `TopologyMap.DecodeGetCpuId`, `TopologyMap.GetCpuIdInjective` and `TopologyMap.GetCpuIdBound`. |
| TopologyMap.DecodeGetCpuId | include/topology.hpp:228-235 | Round trip: in-range coordinates are recovered from their cpu id. |
| TopologyMap.GetCpuIdInjective | include/topology.hpp:228-235 | Distinct in-range coordinates have distinct cpu ids. |
| TopologyMap.GetCpuIdBound | include/topology.hpp:228-235 | Every in-range cpu id is below threads x sockets x cores. |
| TopologyMap.Walk | include/topology.hpp:117-137 | The model of `build_map`'s three loops from a given position. It never raises `left`. What it places is stated by `TopologyMap.WalkBuilds` and `TopologyMap.WalkCompletes`. |
| TopologyMap.WalkInvInsert | include/topology.hpp:124-133 | The cpu id of the coordinates being placed is not yet in the map. Placing the worker there keeps the entries fresh, the ids distinct and in visit order, and the count equal to the next id. |
| TopologyMap.WalkBuilds | include/topology.hpp:116-139 | From any loop position, the remaining loops lower `left` by exactly the number of workers placed. They leave one fresh entry per id, with the ids distinct and in visit order. |
| TopologyMap.WalkCompletes | include/topology.hpp:116-139 | When the break at line 136 skips no socket (threshold 0, or one socket), the loops from any position keep the placed coordinates a prefix of the visit order. If workers are left at the end, every in-range, non-skipped coordinate has a worker. |
| TopologyMap.BuildMap | include/topology.hpp:112-142 | The model of `build_map`: the loops, then `m_nworkers -= left`. Its contract is stated by `TopologyMap.BuildMapProperties` and `TopologyMap.BuildMapComplete`. |
| TopologyMap.BuildMapProperties | include/topology.hpp:112-142 | Properties of `build_map`'s result: at most the requested number of workers, and `m_nworkers` equal to the map's size. Each entry sits at the cpu id of its in-range, non-skipped coordinates, with no victim and flags 0. Ids are 0..n-1 and are given in visit order: ascending cores on thread 0, descending on later threads. Which coordinates get a worker is stated by `TopologyMap.BuildMapComplete`. |
| TopologyMap.BuildMapComplete | include/topology.hpp:112-142 | When the break at line 136 skips no socket, every in-range, non-skipped coordinate visited before a placed worker is placed too. Fewer workers than requested are placed only when every such coordinate has one. So `m_nworkers` equals the requested count whenever the machine has at least that many such coordinates. |
| TopologyLinks.LinkThief | include/topology.hpp:175-188 | Succeeds exactly when the thief exists and has no victim, and changes nothing when it fails. On success it sets only that thief's victim and flags. |
| TopologyLinks.LinkThiefCounts | include/topology.hpp:175-188 | A call only gives thieves to its victim, and a successful call gives it exactly one more. |
| TopologyLinks.SearchThread | include/topology.hpp:190-199 | The model of `set_thief_at_next_thread`, the loop over later hardware threads. Its contract is stated by `TopologyLinks.SearchThreadLinks`. |
| TopologyLinks.SearchThreadLinks | include/topology.hpp:190-199 | `set_thief_at_next_thread` links at most one thief, an unlinked worker other than the victim, placed after the victim. It succeeds exactly when the victim's thief count grows. |
| TopologyLinks.SearchCoreUp | include/topology.hpp:201-210 | The model of `set_thief_at_next_core` as written, the loop over higher cores. Its contract is stated by `TopologyLinks.SearchCoreUpLinks`. |
| TopologyLinks.SearchCoreUpLinks | include/topology.hpp:201-210 | `set_thief_at_next_core` links at most one unlinked thief, other than the victim. On hardware thread 0 that thief was placed after the victim. |
| TopologyLinks.SearchCoreDownLinks | include/topology.hpp:201-210 | The corrected search on later hardware threads runs toward lower cores and links only workers placed after the victim. |
| TopologyLinks.SearchCoreLinks | include/topology.hpp:201-210 | The next-core search links at most one thief. With the corrected direction, or on thread 0, that thief was placed after the victim. |
| TopologyLinks.ThreadLoopLinks | include/topology.hpp:167-168 | The thread loop adds exactly `left` minus its final `left` thieves, all unlinked before and all placed after the victim. |
| TopologyLinks.CoreLoopLinks | include/topology.hpp:170-171 | The core loop adds exactly `left` minus its final `left` thieves, all previously unlinked. |
| TopologyLinks.SearchesLinks | include/topology.hpp:165-171 | The three searches together add exactly `left` minus the final `left` thieves to the victim and change nothing else. |
| TopologyLinks.CrossLink | include/topology.hpp:152-156 | The model of the cross-socket link of `link_thieves`. Its contract is stated by `TopologyLinks.CrossLinkStep`. |
| TopologyLinks.CrossLinkStep | include/topology.hpp:152-156 | The cross-socket link adds at most one thief, and when it succeeds the next socket's first worker is the thief with flags 2. |
| TopologyLinks.NeighbourStep | include/topology.hpp:158-161 | With one thief to find, the step for a worker past core 0 on a later hardware thread keeps every entry at its cpu id. It gives thieves only to that worker, only unlinked workers other than itself (built after it under the corrected search), and keeps its fan-out bounded. |
| TopologyLinks.LinkWorker | include/topology.hpp:147-171 | The model of one turn of `link_thieves`' loop for worker i. Its contract is stated by `TopologyLinks.LinkWorkerBounded` and `TopologyLinks.LinkWorkerKeeps`. |
| TopologyLinks.LinkWorkerBounded | include/topology.hpp:147-171 | One pass gives worker i at most `max_thieves` thieves, or at most 2 when its cross-socket link succeeded. It only links workers without a victim, and only to i. With the corrected search, each thief was placed after i. |
| TopologyLinks.LinkWorkerKeeps | include/topology.hpp:144-173 | One turn of `link_thieves` keeps the invariant one cpu further: victims assigned only to visited workers, every victim another worker, bounded fan-out of visited workers. Victims once set are never overwritten. |
| TopologyLinks.LinkAll | include/topology.hpp:144-173 | The model of `link_thieves`, a walk over the cpu ids in ascending order. Its contract is stated by `TopologyLinks.LinkAllKeeps`. |
| TopologyLinks.LinkAllKeeps | include/topology.hpp:144-173 | `link_thieves` only assigns victims and never overwrites one. Every victim is another worker (placed earlier under the corrected search), and every worker ends with bounded fan-out. |
| TopologyLinks.NoVictimCycle | include/topology.hpp:152-210 | If every victim was placed before its thief, following one or more victim links never comes back to the start. |
| TopologyLinks.Build | include/topology.hpp:77-107 | The model of the constructor: `build_map`, then `link_thieves`. Its contract is stated by `TopologyLinks.BuildProperties` and `TopologyLinks.TopologyIsForest`. |
| TopologyLinks.BuildProperties | include/topology.hpp:77-107 | Whenever the cpu count fits below `UNDEF`, the constructor's topology has one entry per worker with distinct ids 0..n-1, and n is at most the requested count. Keys are below the cpu count. Every victim is another worker, built earlier under the corrected search, and fan-out is bounded. How many workers it has is stated by `TopologyLinks.BuildComplete`. |
| TopologyLinks.BuildComplete | include/topology.hpp:77-142 | The constructor's topology has exactly the cpu ids `build_map` placed. When the break at line 136 skips no socket, it has fewer workers than requested only if every in-range, non-skipped coordinate has one. So it has exactly the requested number whenever the machine has that many such coordinates. |
| TopologyLinks.TopologyIsForest | include/topology.hpp:144-210 | With the corrected core search the victim relation of every machine has no cycle. |
| TopologyExample.MachineMap | include/topology.hpp:112-142 | On one socket, two hardware threads and three cores, `build_map` places six workers: cpus 0, 1, 2, then 5, 4, 3. |
| TopologyExample.LinkAllMachine | include/topology.hpp:144-173 | On that machine with one thief each, `link_thieves` sets the victim of cpu 1 to 0, of cpu 2 to 1, of cpu 5 to 2, of cpu 4 to 3 and of cpu 3 to 4, and nothing else. |
| TopologyExample.AsWrittenVictimCycle | include/topology.hpp:158-171 | As written, cpus 3 and 4 are each other's victim, so following victim links from cpu 3 returns to it after two steps. |
| TopologyExample.FixedHasNoCycle | include/topology.hpp:144-210 | The corrected topology of the same machine has no victim cycle. |
| WorkerChain.AppendChain | include/worker.hpp:99-108 | The model of the constructor's loop that appends deques. The result has `count` more nodes; the rest of its contract is stated by `WorkerChain.AppendChainExtends`. |
| WorkerChain.AppendChainExtends | include/worker.hpp:99-108 | The constructor's loop extends the chain by `count` new deques linked both ways (`d.next.prev == d`) and changes only the old tail's `next`. The new deques are unmarked and have no victim. |
| WorkerChain.NewWorker | include/worker.hpp:75-109 | The model of the worker constructor: a marked head deque, then `taskgraph_height` more. Its contract is stated by `WorkerChain.NewWorkerChain`. |
| WorkerChain.NewWorkerChain | include/worker.hpp:75-109 | The constructor adds exactly `taskgraph_height + 1` deques forming a well-formed chain from the head, without victims, of which only the head is marked. The deques already in the arena are unchanged, and the worker's victim fields are empty. |
| WorkerChain.PairLoop | include/worker.hpp:126-131 | The model of `set_victim`'s pairing loop. It keeps the arena's size; the rest of its contract is stated by `WorkerChain.PairLoopPairs`. |
| WorkerChain.PairLoopPairs | include/worker.hpp:126-131 | The pairing loop points own deque j at the victim's deque j for every depth below both lengths and changes nothing else. It ends on the victim's first unpaired deque, or null. |
| WorkerChain.SetVictim | include/worker.hpp:117-134 | The model of `set_victim`. Its contract is stated by `WorkerChain.SetVictimPairs` and `WorkerChain.SetVictimEstablishesPairing`. |
| WorkerChain.SetVictimPairs | include/worker.hpp:117-134 | `set_victim` pairs the chains depth by depth up to the shorter length and sets `m_victim` and `m_victim_head`. `m_victim_tail` is the victim's first unpaired deque, or null. |
| WorkerChain.SetVictimEstablishesPairing | include/worker.hpp:117-134 | On a chain without victims, `set_victim` leaves both chains intact and establishes the pairing invariant with n the shorter length. `m_victim_tail` is set only when the victim's chain is longer. |
| WorkerChain.GrowTail | include/worker.hpp:160-182 | As written: nothing happens when `tail` has a `next`. Otherwise it appends one blank deque with `prev == tail` and `tail.next ==` it. The new deque's victim is `m_victim_tail->get_next()` when both exist, and `m_victim_tail` moves there. |
| WorkerChain.GrowTailFixed | include/worker.hpp:160-182 | The corrected step keeps `tail`'s victim, sets `tail.next` to the existing or the new deque, and adds at most one deque. |
| WorkerChain.GrowTailFixedKeepsPairing | include/worker.hpp:160-182 | The corrected step on the tail of a paired chain extends the chain by exactly the new deque and keeps the depth-by-depth pairing. The pairing is one deeper when `m_victim_tail` was set. |
| WorkerChain.AsWrittenGrowTailSkipsDepth | include/worker.hpp:173-181 | As written, the new deque at depth 1 is paired with the victim's deque at depth 2, not depth 1. |
| WorkerLoops.Navigate | include/worker.hpp:206-222 | The model of `steal_loop`'s navigation after a failed steal. Its contract is stated by `WorkerLoops.NavigateFollowsChain`. |
| WorkerLoops.NavigateFollowsChain | include/worker.hpp:206-222 | On a well-formed chain, the navigation step, which follows `next` and `prev` pointers, is a move between depths of the chain. It lands on the deque of the chain at the new depth and never leaves the chain. |
| WorkerLoops.StealLoop | include/worker.hpp:184-224 | The model of `steal_loop`, one steal outcome per turn. Its contract is stated by `WorkerLoops.StealLoopFollowsChain` and `WorkerLoops.StealDepthsPairs`. |
| WorkerLoops.StealLoopFollowsChain | include/worker.hpp:184-224 | On a well-formed victim chain, `steal_loop` produces the events of its walk over depths and ends on a deque of the chain. |
| WorkerLoops.StealDepthsPairs | include/worker.hpp:206-210 | `steal_loop` produces exactly two events per stolen task and no others. The k-th stolen task, in the order stolen, is run with the head deque as child, and is followed at once by one `return_stolen` to a deque of the victim's chain. |
| WorkerLoops.StealTask | include/worker.hpp:283-301 | Returns a task exactly when `tail` has a victim deque and the steal succeeds. It then sets `*victim` to that deque, and otherwise leaves `*victim` untouched. |
| WorkerLoops.LocalLoop | include/worker.hpp:226-281 | The model of `local_loop` from the top of its loop. Its contract is stated by `WorkerLoops.LocalLoopMatches` and `WorkerLoops.ExpectedExits`. |
| WorkerLoops.LocalLoopMatches | include/worker.hpp:226-281 | From any loop state, `local_loop`'s events are the pending task's events followed by each round's events, up to the first round that exits. It returns exactly when such a round comes, with `victim` cleared. |
| WorkerLoops.ExpectedExits | include/worker.hpp:257-261 | The rounds contain an exiting round exactly when some `take` yields no task with `nstolen == 0`. |
| WorkerLoops.LocalLoopRun | include/worker.hpp:155-158 | The model of `local_loop(tail)` as called, for instance by `root_wait` on the head deque. Its contract is stated by `WorkerLoops.LocalLoopRunSpec`. |
| WorkerLoops.LocalLoopRunSpec | include/worker.hpp:226-281 | `local_loop(tail)` returns exactly when some `take` yields no task with `nstolen == 0`, and clears `victim`. Its events are the rounds' events up to that point: a taken task runs; a stolen task runs and is then returned once. |

## Left out

- Memory ordering, acquire/release semantics and real interleavings: each operation is one atomic step, and a racing compare-and-swap or `try_lock` is a boolean input.
- The mutex of `std_deque` beyond `try_lock`'s outcome, thread creation, and the `m_stopped` flag. A finite sequence of steal outcomes ends `steal_loop`, standing in for `stop()`.
- `hardware_concurrency()`: the machine shape (sockets, threads, cores) is a parameter, so the constructor's division by sockets x threads is not modelled. The constructor as written fixes `m_nsockets = 1` and `m_nthreads = 2` (topology.hpp:88-89), and the model generalises both. With one socket, the cross-socket link (topology.hpp:152-156), the skip at line 126 and the break at line 136 cannot be reached from the constructor; the model covers them only for other machine shapes.
- `Debug()`, `print`, `print_counters` and the statistics counters: output only.
- `task_deque`, `lifo_allocator` and `task::process` are not part of this model. `take` and `steal` are inputs, and running a task is an event. The allocator, `root_allocate`, `root_commit` and the destructor are left out with them.
- `root_wait` is `local_loop` on the head deque and is covered by `WorkerLoops.LocalLoopRun`.
- Leaked arrays and `shared_ptr` ownership; a slot never written reads as `None`, where C++ reads an uninitialised value.
- `push_bottom_safe` is the same operation as `push_bottom` in both baselines and has no separate member.
- CircularArray.Get: requires a non-negative index, because `u_deque` never passes a negative one and C++ `%` on one would index outside the array.
- CircularArray.Put: requires a non-negative index, for the same reason as `get`.
- ChaseLev.PushBottom: does not model 32-bit `int` overflow of `top`, `bottom` or `1 << log_size`, because the indices are unbounded integers.
- BoundedDeque.PushBottom: requires `bottom` below the 30000 slots, because writing past the array is undefined behaviour in C++.
- TopologyMap.GetCpuId: computes in unbounded arithmetic, without `size_t` wrap-around; the topology lemmas require the cpu count to fit below `UNDEF`.
- TopologyMap.BuildMapComplete: requires that the break at topology.hpp:136 skips no socket (a threshold of 0, or one socket, as the constructor sets up). With several sockets and a positive threshold, the break skips the rest of a hardware thread's sockets, and the placed coordinates are then not a prefix of the visit order.
- WorkerChain.PairLoop: the loop is bounded by the arena's size. On a cyclic chain C++ would loop forever, while the model stops; the pairing lemmas assume well-formed chains, where the bound is never reached.
- WorkerLoops.LocalLoop: uses the corrected `grow_tail`, because its exit condition and events do not depend on the pairing.
- WorkerLoops.StealLoop: the thief's `was_empty`/`was_null` flags are taken as given, because `task_deque::steal` is not part of this model.

## Findings

| source | as written | input that shows it | evidently intended | confidence | as-written member | corrected member |
|---|---|---|---|---|---|---|
| deque.h:256-263 | a failed `compare_exchange_strong` writes the observed `top` (t + 1) back into `t`, and `_bottom = t + 1` then sets `bottom` to the old top + 2 | push a, push b, `pop_bottom` (b), `pop_bottom` losing the race for a to a thief: the next `pop_bottom` returns b again | reset `bottom` to the old top + 1, leaving the deque empty | not executed | ChaseLev.AsWrittenLostRaceDuplicates | ChaseLev.RaceHasOneWinner |
| deque.h:133-140 | when thieves drained the deque (`bottom - 1 < top.val`), `pop_bottom` stores `{0, stamp + 1}` into `top` but leaves `bottom` at its decremented value | push a, push b, two successful `pop_top`, `pop_bottom` (NULL), `pop_bottom`: returns a again | reset `bottom` to 0 as well | not executed | BoundedDeque.AsWrittenDrainedDuplicates | BoundedDeque.PopBottomFixed |
| deque.h:155-158 | `empty()` returns `top.val < bottom` | a deque holding one task reports empty | `top.val >= bottom` | not executed | BoundedDeque.Empty | BoundedDeque.EmptyFixed |
| include/topology.hpp:158-171 | on hardware threads above 0, `build_map` numbers cores downward but `set_thief_at_next_core` searches upward, while line 160 links the lower neighbour | one socket, two hardware threads, three cores, one thief each: cpus 3 and 4 become each other's victim | search cores in `build_map`'s order on every row, so every victim is built before its thief and the victim relation is a forest | not executed | TopologyExample.AsWrittenVictimCycle | TopologyLinks.TopologyIsForest |
| include/worker.hpp:176-181 | `grow_tail` pairs the new deque with `m_victim_tail->get_next()`, although `m_victim_tail` is already the victim's deque at the new depth | own chain of one deque, victim chain of three: the new deque at depth 1 is paired with the victim's depth-2 deque | pair with `m_victim_tail` itself and advance it to its `next` | not executed | WorkerChain.AsWrittenGrowTailSkipsDepth | WorkerChain.GrowTailFixedKeepsPairing |

=== FILE: bounded_deque.dfy ===
/** `b_deque` of deque.h: a bounded lock-free baseline.  Tasks live in a
    fixed array of 30000 slots; `top` is a (value, stamp) pair updated by
    compare-and-swap, the stamp guarding against ABA.  Every operation is
    one atomic step; a compare-and-swap outcome that can race is an input. */
module BoundedDeque {
  import opened Common
  import Spec = DequeSpec

  /** `stamped_int` (deque.h:11-15). */
  datatype Stamped = Stamped(val: int, stamp: int)

  datatype BDeque<T> = BDeque(slots: map<int, T>, bottom: int, top: Stamped)

  datatype Popped<T> = Popped(d: BDeque<T>, item: Option<T>)

  /** The array allocated by the constructor (deque.h:92). */
  const Capacity: int := 30000

  /** Every written slot below `bottom` is present and the live range
      [top.val, bottom) lies inside the array. */
  ghost predicate Valid<T>(d: BDeque<T>)
  {
    && 0 <= d.top.val <= d.bottom <= Capacity
    && forall i :: 0 <= i < d.bottom ==> i in d.slots
  }

  /** Abstraction: the tasks at [top.val, bottom), oldest first. */
  ghost function Contents<T>(d: BDeque<T>): (s: seq<T>)
    requires Valid(d)
    ensures |s| == d.bottom - d.top.val
  {
    seq(d.bottom - d.top.val, k requires 0 <= k < d.bottom - d.top.val => d.slots[d.top.val + k])
  }

  /** The constructor (deque.h:89-95). */
  function Init<T>(): (d: BDeque<T>)
    ensures Valid(d) && Contents(d) == [] && d.top.stamp == 0
  {
    BDeque(map[], 0, Stamped(0, 0))
  }

  /** `empty()` as written (deque.h:155-158): it answers `top.val < bottom`,
      which holds exactly when the deque is NOT empty. */
  function Empty<T>(d: BDeque<T>): (r: bool)
    requires Valid(d)
    ensures r <==> Contents(d) != []
  {
    d.top.val < d.bottom
  }

  /** `empty()` with the comparison the name promises. */
  function EmptyFixed<T>(d: BDeque<T>): (r: bool)
    requires Valid(d)
    ensures r <==> Contents(d) == []
  {
    d.top.val >= d.bottom
  }

  /** `push_bottom` and `push_bottom_safe` (deque.h:143-153): store at
      `bottom` and advance it.  Writing past the array is undefined, so the
      array must have room. */
  function PushBottom<T>(d: BDeque<T>, x: T): (r: BDeque<T>)
    requires Valid(d) && d.bottom < Capacity
    ensures Valid(r) && r.top == d.top && r.bottom == d.bottom + 1
    ensures Contents(r) == Spec.Append(Contents(d), x)
  {
    var r := BDeque(d.slots[d.bottom := x], d.bottom + 1, d.top);
    assert Contents(r) == Contents(d) + [x];
    r
  }

  /** `pop_top` (deque.h:102-117), the thief's steal.  `casOk` is the outcome
      of `compare_exchange_weak`, which may also fail spuriously. */
  function PopTop<T>(d: BDeque<T>, casOk: bool): (r: Popped<T>)
    requires Valid(d)
    ensures Valid(r.d)
    ensures Contents(d) == [] || !casOk ==> r == Popped(d, None)
    ensures casOk ==>
      Contents(r.d) == Spec.PopFirst(Contents(d)).rest && r.item == Spec.PopFirst(Contents(d)).item
    ensures casOk && Contents(d) != [] ==>
      r.d.top == Stamped(d.top.val + 1, d.top.stamp + 1) && r.d.bottom == d.bottom
  {
    var seen := d.top;
    if d.bottom <= seen.val then Popped(d, None)
    else
      var item := d.slots[seen.val];
      if !casOk then Popped(d, None)
      else
        var r := d.(top := Stamped(seen.val + 1, seen.stamp + 1));
        assert Contents(r) == Contents(d)[1..];
        Popped(r, Some(item))
  }

  /** `pop_bottom` as written (deque.h:119-141).  `lost` says the owner's
      `compare_exchange_weak` on the last task failed: either a thief's
      `pop_top` took the task first, or the weak compare-and-swap failed
      spuriously with no thief at all.  The owner then stores
      `{0, stamp + 1}` into `top` and returns NULL, so after a spurious
      failure the task is neither returned nor left in the deque.  When the deque
      was already drained by thieves (`bottom - 1 < top.val`) only `top` is
      reset: `bottom` keeps its decremented value. */
  function PopBottom<T>(d: BDeque<T>, lost: bool): (r: Popped<T>)
    requires Valid(d)
    ensures d.bottom == 0 ==> r == Popped(d, None)
    ensures |Contents(d)| > 1 ==>
      && Valid(r.d) && r.d.top == d.top
      && r.item == Some(Contents(d)[|Contents(d)| - 1])
      && Contents(r.d) == Contents(d)[..|Contents(d)| - 1]
    ensures |Contents(d)| == 1 ==>
      && Valid(r.d) && r.d.bottom == 0 && r.d.top == Stamped(0, d.top.stamp + 1)
      && r.item == (if lost then None else Some(Contents(d)[0]))
    ensures Contents(d) == [] && d.bottom > 0 ==>
      && Valid(r.d) && r.item == None
      && r.d.top == Stamped(0, d.top.stamp + 1) && r.d.bottom == d.bottom - 1
  {
    if d.bottom == 0 then Popped(d, None)
    else
      var b := d.bottom - 1;
      var item := d.slots[b];
      var seen := d.top;
      var reset := Stamped(0, seen.stamp + 1);
      if b > seen.val then
        var r := d.(bottom := b);
        assert Contents(r) == Contents(d)[..|Contents(d)| - 1];
        Popped(r, Some(item))
      else if b == seen.val then
        if !lost then Popped(d.(bottom := 0, top := reset), Some(item))
        else Popped(d.(bottom := 0, top := reset), None)
      else Popped(d.(bottom := b, top := reset), None)
  }

  /** `pop_bottom` resetting `bottom` to 0 also when thieves drained the
      deque, so that the reset `top` and `bottom` describe an empty deque.
      `lost` is as in `PopBottom`: a spurious failure of the weak
      compare-and-swap still drops the last task. */
  function PopBottomFixed<T>(d: BDeque<T>, lost: bool): (r: Popped<T>)
    requires Valid(d)
    ensures Valid(r.d)
    ensures !lost || |Contents(d)| != 1 ==>
      Contents(r.d) == Spec.PopLast(Contents(d)).rest && r.item == Spec.PopLast(Contents(d)).item
    ensures lost && |Contents(d)| == 1 ==> Contents(r.d) == [] && r.item == None
    ensures Contents(r.d) == [] ==> r.d.bottom == 0 || r.d == d
  {
    if d.bottom == 0 then Popped(d, None)
    else
      var b := d.bottom - 1;
      var item := d.slots[b];
      var seen := d.top;
      var reset := Stamped(0, seen.stamp + 1);
      if b > seen.val then
        var r := d.(bottom := b);
        assert Contents(r) == Contents(d)[..|Contents(d)| - 1];
        Popped(r, Some(item))
      else if b == seen.val then
        if !lost then Popped(d.(bottom := 0, top := reset), Some(item))
        else Popped(d.(bottom := 0, top := reset), None)
      else Popped(d.(bottom := 0, top := reset), None)
  }

  datatype BTrace<T> = BTrace(final: BDeque<T>, outs: seq<Option<T>>)

  /** Only `push_bottom` writes into the array, so only a push needs a free
      slot; both pops are defined on a full array. */
  function Apply<T>(d: BDeque<T>, op: Spec.Op<T>): (r: Popped<T>)
    requires Valid(d) && (op.PushBottom? ==> d.bottom < Capacity)
    ensures Valid(r.d) && r.d.bottom <= d.bottom + 1
    ensures Contents(r.d) == Spec.Step(Contents(d), op).rest
    ensures r.item == Spec.Step(Contents(d), op).item
  {
    match op
    case PushBottom(x) => Popped(PushBottom(d, x), None)
    case PopBottom => PopBottomFixed(d, false)
    case PopTop => PopTop(d, true)
  }

  /** Every push of the run, replayed from `d`, finds a free slot.  Pops
      never need one, and the corrected pop returns `bottom` to 0 whenever
      it empties the deque, so a run may be arbitrarily long. */
  ghost predicate Fits<T>(d: BDeque<T>, ops: seq<Spec.Op<T>>)
    decreases ops
  {
    && Valid(d)
    && (|ops| > 0 ==>
          && (ops[0].PushBottom? ==> d.bottom < Capacity)
          && Fits(Apply(d, ops[0]).d, ops[1..]))
  }

  /** Uncontended, and with every push finding a free slot, the corrected
      `b_deque` behaves exactly like the reference deque. */
  function RunB<T>(d: BDeque<T>, ops: seq<Spec.Op<T>>): (t: BTrace<T>)
    requires Fits(d, ops)
    ensures Valid(t.final)
    ensures Contents(t.final) == Spec.Run(Contents(d), ops).final
    ensures t.outs == Spec.Run(Contents(d), ops).outs
    decreases ops
  {
    if |ops| == 0 then BTrace(d, [])
    else
      var p := Apply(d, ops[0]);
      var t := RunB(p.d, ops[1..]);
      BTrace(t.final, [p.item] + t.outs)
  }

  /** `n` rounds of push followed by owner pop. */
  function PushPops<T>(x: T, n: nat): (ops: seq<Spec.Op<T>>)
    ensures |ops| == 2 * n
    ensures forall i :: 0 <= i < |ops| ==> ops[i] == if i % 2 == 0 then Spec.PushBottom(x) else Spec.PopBottom
  {
    if n == 0 then []
    else
      var rest := PushPops(x, n - 1);
      var ops := [Spec.PushBottom(x), Spec.PopBottom] + rest;
      assert forall i :: 2 <= i < |ops| ==> ops[i] == rest[i - 2] && i % 2 == (i - 2) % 2;
      ops
  }

  /** One push/pop round on an empty deque with `bottom` at 0 returns the
      task and leaves an empty deque with `bottom` at 0 again. */
  lemma PushPopRound<T>(d: BDeque<T>, x: T)
    requires Valid(d) && d.bottom == 0
    ensures var p := Apply(Apply(d, Spec.PushBottom(x)).d, Spec.PopBottom);
      p.item == Some(x) && Valid(p.d) && p.d.bottom == 0
  {
  }

  /** A run is not limited by the array size: from a deque with `bottom` at
      0, any number of push/pop rounds fits. */
  lemma {:induction false} PushPopsFit<T>(d: BDeque<T>, x: T, n: nat)
    requires Valid(d) && d.bottom == 0
    ensures Fits(d, PushPops(x, n))
    decreases n
  {
    if n > 0 {
      var ops := PushPops(x, n);
      var rest := PushPops(x, n - 1);
      assert ops == [Spec.PushBottom(x), Spec.PopBottom] + rest;
      var d1 := Apply(d, ops[0]).d;
      PushPopRound(d, x);
      var d2 := Apply(d1, ops[1]).d;
      PushPopsFit(d2, x, n - 1);
      assert ops[1..][1..] == rest;
      assert Fits(d1, ops[1..]);
    }
  }

  /** Both pops are defined on a full array. */
  lemma PopsFitWhenFull<T>(d: BDeque<T>)
    requires Valid(d) && d.bottom == Capacity
    ensures Fits(d, [Spec.PopBottom]) && Fits(d, [Spec.PopTop])
    ensures RunB(d, [Spec.PopTop]).outs == [Spec.PopFirst(Contents(d)).item]
  {
  }

  /** As written, a deque drained by two steals is revived by `pop_bottom`:
      it resets `top.val` to 0 but leaves `bottom` at 1, so the next owner
      pop hands out the first task a second time. */
  lemma AsWrittenDrainedDuplicates<T>(a: T, b: T)
    ensures
      var d2 := PushBottom(PushBottom(Init(), a), b);
      var s1 := PopTop(d2, true);
      var s2 := PopTop(s1.d, true);
      var p3 := PopBottom(s2.d, false);
      var p4 := PopBottom(p3.d, false);
      && s1.item == Some(a) && s2.item == Some(b)
      && p3.item == None
      && p4.item == Some(a)
  {
    var d0: BDeque<T> := Init();
    var d2 := PushBottom(PushBottom(d0, a), b);
    assert d2.slots[0] == a && d2.slots[1] == b;
    var s1 := PopTop(d2, true);
    var s2 := PopTop(s1.d, true);
    assert s2.d == BDeque(d2.slots, 2, Stamped(2, 2));
    var p3 := PopBottom(s2.d, false);
    assert p3.d == BDeque(d2.slots, 1, Stamped(0, 3));
  }
}

=== FILE: chase_lev.dfy ===
/** `u_deque` of deque.h: the Chase-Lev dynamic circular work-stealing
    deque.  `top` and `bottom` are logical indices into a growable ring;
    the live items are those at [top, bottom).  Every operation is one
    atomic step; the outcome of a compare-and-swap that can race is an
    input. */
module ChaseLev {
  import opened Common
  import CA = CircularArray
  import Spec = DequeSpec

  datatype UDeque<T> = UDeque(top: int, bottom: int, tasks: CA.CArray<T>)

  /** The result of a pop: the deque afterwards and the task (None is NULL). */
  datatype Popped<T> = Popped(d: UDeque<T>, item: Option<T>)

  /** The initial ring has `1 << 7` slots (deque.h:209). */
  const InitialLogSize: nat := 7

  /** The state every operation preserves: the live range fits the ring with
      one slot to spare and every live slot holds a pushed task. */
  ghost predicate Valid<T>(d: UDeque<T>)
  {
    && 0 <= d.top <= d.bottom
    && CA.Valid(d.tasks)
    && d.bottom - d.top < CA.Size(d.tasks)
    && forall i :: d.top <= i < d.bottom ==> CA.Get(d.tasks, i).Some?
  }

  /** Abstraction: the tasks at [top, bottom), oldest first. */
  ghost function Contents<T>(d: UDeque<T>): (s: seq<T>)
    requires Valid(d)
    ensures |s| == d.bottom - d.top
  {
    seq(d.bottom - d.top, k requires 0 <= k < d.bottom - d.top => CA.Get(d.tasks, d.top + k).value)
  }

  /** The constructor (deque.h:208-212). */
  function Init<T>(): (d: UDeque<T>)
    ensures Valid(d) && Contents(d) == []
    ensures CA.Size(d.tasks) == 128
  {
    UDeque(0, 0, CA.New(InitialLogSize))
  }

  /** `empty()` (deque.h:214-219). */
  function Empty<T>(d: UDeque<T>): (r: bool)
    requires Valid(d)
    ensures r <==> Contents(d) == []
  {
    d.top >= d.bottom
  }

  /** `push_bottom` (deque.h:221-236): grow the ring when only one free slot
      is left, then store at `bottom` and advance it. */
  function PushBottom<T>(d: UDeque<T>, x: T): (r: UDeque<T>)
    requires Valid(d)
    ensures Valid(r)
    ensures r.top == d.top && r.bottom == d.bottom + 1
    ensures Contents(r) == Spec.Append(Contents(d), x)
    ensures (r.tasks.logSize == d.tasks.logSize + 1) <==> d.bottom - d.top >= CA.Size(d.tasks) - 1
    ensures r.tasks.logSize == d.tasks.logSize || r.tasks.logSize == d.tasks.logSize + 1
  {
    var a := RoomFor(d);
    StoreExtends(d, a, x);
    UDeque(d.top, d.bottom + 1, CA.Put(a, d.bottom, Some(x)))
  }

  /** Lines 226-230 of `push_bottom`: the ring to store into, doubled when
      only one free slot is left.  It keeps the live tasks and has room for
      one more with a slot to spare. */
  function RoomFor<T>(d: UDeque<T>): (a: CA.CArray<T>)
    requires Valid(d)
    ensures CA.Valid(a) && d.bottom - d.top + 1 < CA.Size(a)
    ensures forall i :: d.top <= i < d.bottom ==> CA.Get(a, i) == CA.Get(d.tasks, i)
    ensures (a.logSize == d.tasks.logSize + 1) <==> d.bottom - d.top >= CA.Size(d.tasks) - 1
    ensures a.logSize == d.tasks.logSize || a.logSize == d.tasks.logSize + 1
  {
    if d.bottom - d.top >= CA.Size(d.tasks) - 1 then CA.Resize(d.tasks, d.top, d.bottom) else d.tasks
  }

  /** Storing at `bottom` of a ring that agrees with the old one on the live
      range, and has room for one more, appends to the contents. */
  lemma StoreExtends<T>(d: UDeque<T>, a: CA.CArray<T>, x: T)
    requires Valid(d) && CA.Valid(a) && d.bottom - d.top + 1 < CA.Size(a)
    requires forall i :: d.top <= i < d.bottom ==> CA.Get(a, i) == CA.Get(d.tasks, i)
    ensures Valid(UDeque(d.top, d.bottom + 1, CA.Put(a, d.bottom, Some(x))))
    ensures Contents(UDeque(d.top, d.bottom + 1, CA.Put(a, d.bottom, Some(x)))) == Contents(d) + [x]
  {
    var t, b := d.top, d.bottom;
    var r := UDeque(t, b + 1, CA.Put(a, b, Some(x)));
    StoreKeeps(d, a, x);
    assert Valid(r);
    var c, c0 := Contents(r), Contents(d);
    forall k | 0 <= k < |c|
      ensures c[k] == (c0 + [x])[k]
    {
      if k < |c0| {
        assert c[k] == CA.Get(r.tasks, t + k).value;
      }
    }
  }

  /** The store at `bottom` leaves the live slots below it alone. */
  lemma StoreKeeps<T>(d: UDeque<T>, a: CA.CArray<T>, x: T)
    requires Valid(d) && CA.Valid(a) && d.bottom - d.top + 1 < CA.Size(a)
    requires forall i :: d.top <= i < d.bottom ==> CA.Get(a, i) == CA.Get(d.tasks, i)
    ensures CA.Valid(CA.Put(a, d.bottom, Some(x)))
    ensures CA.Get(CA.Put(a, d.bottom, Some(x)), d.bottom) == Some(x)
    ensures forall i :: d.top <= i < d.bottom ==> CA.Get(CA.Put(a, d.bottom, Some(x)), i) == CA.Get(d.tasks, i)
  {
    forall i | d.top <= i < d.bottom
      ensures CA.Get(CA.Put(a, d.bottom, Some(x)), i) == CA.Get(d.tasks, i)
    {
      ModDistinct(i, d.bottom, CA.Size(a));
    }
  }

  /** `pop_bottom` as written (deque.h:238-264).  `lost` says that a thief's
      `pop_top` took the last task between the owner's load of `top` and its
      compare-and-swap.  That thief's CAS is the only write `top` can see
      there, so the failed `compare_exchange_strong` refreshes `t` to t+1
      and line 262 stores `bottom = t + 2`. */
  function PopBottom<T>(d: UDeque<T>, lost: bool): (r: Popped<T>)
    requires Valid(d)
    ensures Contents(d) == [] ==> r == Popped(d, None)
    ensures |Contents(d)| > 1 ==>
      Valid(r.d) && r.item == Some(Contents(d)[|Contents(d)| - 1])
      && Contents(r.d) == Contents(d)[..|Contents(d)| - 1] && r.d.top == d.top
    ensures |Contents(d)| == 1 && !lost ==>
      Valid(r.d) && r.item == Some(Contents(d)[0])
      && r.d.top == r.d.bottom == d.top + 1
    ensures |Contents(d)| == 1 && lost ==>
      r.item == None && r.d.top == d.top + 1 && r.d.bottom == d.top + 2
  {
    var b := d.bottom - 1;
    var t := d.top;
    if b - t < 0 then Popped(d.(bottom := t), None)
    else
      var item := CA.Get(d.tasks, b);
      if b - t > 0 then
        assert Contents(d.(bottom := b)) == Contents(d)[..|Contents(d)| - 1];
        Popped(d.(bottom := b), item)
      else if !lost then Popped(UDeque(t + 1, t + 1, d.tasks), item)
      else
        var observed := t + 1;
        Popped(UDeque(observed, observed + 1, d.tasks), None)
  }

  /** `pop_bottom` with the reset of the Chase-Lev paper: `bottom` is set
      from the `top` the owner loaded, not from the value a failed
      compare-and-swap writes back.  When the race is lost the thief holds
      the task and the deque is left empty. */
  function PopBottomFixed<T>(d: UDeque<T>, lost: bool): (r: Popped<T>)
    requires Valid(d)
    ensures Valid(r.d)
    ensures !lost || |Contents(d)| != 1 ==>
      Contents(r.d) == Spec.PopLast(Contents(d)).rest && r.item == Spec.PopLast(Contents(d)).item
    ensures lost && |Contents(d)| == 1 ==>
      Contents(r.d) == [] && r.item == None && r.d.top == r.d.bottom == d.top + 1
  {
    var b := d.bottom - 1;
    var t := d.top;
    if b - t < 0 then Popped(d.(bottom := t), None)
    else
      var item := CA.Get(d.tasks, b);
      if b - t > 0 then
        assert Contents(d.(bottom := b)) == Contents(d)[..|Contents(d)| - 1];
        Popped(d.(bottom := b), item)
      else if !lost then Popped(UDeque(t + 1, t + 1, d.tasks), item)
      else Popped(UDeque(t + 1, t + 1, d.tasks), None)
  }

  /** `pop_top` (deque.h:266-283), the thief's steal.  `casOk` is the outcome
      of its compare-and-swap on `top`. */
  function PopTop<T>(d: UDeque<T>, casOk: bool): (r: Popped<T>)
    requires Valid(d)
    ensures Valid(r.d)
    ensures Contents(d) == [] || !casOk ==> r == Popped(d, None)
    ensures casOk ==>
      Contents(r.d) == Spec.PopFirst(Contents(d)).rest && r.item == Spec.PopFirst(Contents(d)).item
    ensures casOk && Contents(d) != [] ==> r.d.top == d.top + 1 && r.d.bottom == d.bottom
  {
    var t := d.top;
    var b := d.bottom;
    if b - t <= 0 then Popped(d, None)
    else
      var item := CA.Get(d.tasks, t);
      if !casOk then Popped(d, None)
      else
        DropOldest(d);
        Popped(d.(top := t + 1), item)
  }

  /** Advancing `top` past a live slot removes the oldest task, the one
      that slot holds. */
  lemma DropOldest<T>(d: UDeque<T>)
    requires Valid(d) && d.top < d.bottom
    ensures Valid(d.(top := d.top + 1))
    ensures Contents(d.(top := d.top + 1)) == Contents(d)[1..]
    ensures CA.Get(d.tasks, d.top) == Some(Contents(d)[0])
  {
    var c, c' := Contents(d), Contents(d.(top := d.top + 1));
    forall k | 0 <= k < |c'|
      ensures c'[k] == c[1..][k]
    {
      assert c'[k] == CA.Get(d.tasks, d.top + 1 + k).value;
    }
  }

  /** A run of owner and thief operations with no race: every
      compare-and-swap succeeds. */
  datatype UTrace<T> = UTrace(final: UDeque<T>, outs: seq<Option<T>>)

  function Apply<T>(d: UDeque<T>, op: Spec.Op<T>): (r: Popped<T>)
    requires Valid(d)
    ensures Valid(r.d)
    ensures Contents(r.d) == Spec.Step(Contents(d), op).rest
    ensures r.item == Spec.Step(Contents(d), op).item
  {
    match op
    case PushBottom(x) => Popped(PushBottom(d, x), None)
    case PopBottom => PopBottomUncontended(d); PopBottom(d, false)
    case PopTop => PopTop(d, true)
  }

  /** With no thief racing for the last task, `pop_bottom` is the reference
      deque's pop at the bottom. */
  lemma PopBottomUncontended<T>(d: UDeque<T>)
    requires Valid(d)
    ensures Valid(PopBottom(d, false).d)
    ensures Contents(PopBottom(d, false).d) == Spec.PopLast(Contents(d)).rest
    ensures PopBottom(d, false).item == Spec.PopLast(Contents(d)).item
  {
    var p := PopBottom(d, false);
    if |Contents(d)| == 1 {
      assert Contents(p.d) == [];
    }
  }

  /** Uncontended, `u_deque` behaves exactly like the reference deque: the
      same outputs and the same final contents for every run. */
  function RunU<T>(d: UDeque<T>, ops: seq<Spec.Op<T>>): (t: UTrace<T>)
    requires Valid(d)
    ensures Valid(t.final)
    ensures Contents(t.final) == Spec.Run(Contents(d), ops).final
    ensures t.outs == Spec.Run(Contents(d), ops).outs
    decreases ops
  {
    if |ops| == 0 then UTrace(d, [])
    else
      var p := Apply(d, ops[0]);
      var t := RunU(p.d, ops[1..]);
      UTrace(t.final, [p.item] + t.outs)
  }

  /** No loss, no duplication: every task pushed in an uncontended run is
      popped or stolen exactly once, or is still in the deque. */
  lemma Conservation<T>(d: UDeque<T>, ops: seq<Spec.Op<T>>)
    requires Valid(d)
    ensures multiset(Contents(d)) + multiset(Spec.Pushed(ops))
         == multiset(Contents(RunU(d, ops).final)) + multiset(Spec.Taken(RunU(d, ops).outs))
  {
    Spec.Conservation(Contents(d), ops);
  }

  /** Sequential LIFO: `push_bottom(x)` then `pop_bottom()` hands back x and
      restores the logical contents [top, bottom). */
  lemma PushThenPop<T>(d: UDeque<T>, x: T)
    requires Valid(d)
    ensures PopBottom(PushBottom(d, x), false).item == Some(x)
    ensures Valid(PopBottom(PushBottom(d, x), false).d)
    ensures Contents(PopBottom(PushBottom(d, x), false).d) == Contents(d)
  {
    var d1 := PushBottom(d, x);
    assert Contents(d1)[..|Contents(d1)| - 1] == Contents(d);
  }

  /** Steals come out oldest first: after pushing xs onto any deque, a
      successful `pop_top` hands out the oldest task present, which is one
      of xs only once the earlier tasks are gone, and leaves the rest in
      order. */
  lemma StealTakesOldest<T>(d: UDeque<T>, xs: seq<T>)
    requires Valid(d) && |Contents(d) + xs| > 0
    ensures PopTop(PushAll(d, xs), true).item == Some((Contents(d) + xs)[0])
    ensures Contents(PopTop(PushAll(d, xs), true).d) == (Contents(d) + xs)[1..]
    ensures Contents(d) == [] ==> PopTop(PushAll(d, xs), true).item == Some(xs[0])
  {
  }

  /** `push_bottom` of every item of xs in order. */
  function PushAll<T>(d: UDeque<T>, xs: seq<T>): (r: UDeque<T>)
    requires Valid(d)
    ensures Valid(r) && Contents(r) == Contents(d) + xs
    ensures r.top == d.top
    decreases |xs|
  {
    if |xs| == 0 then d
    else
      ConsAppend(Contents(d), xs);
      PushAll(PushBottom(d, xs[0]), xs[1..])
  }

  lemma ConsAppend<T>(c: seq<T>, xs: seq<T>)
    requires |xs| > 0
    ensures c + [xs[0]] + xs[1..] == c + xs
  {
    assert xs == [xs[0]] + xs[1..];
  }

  /** The single-element race, as Chase and Lev resolve it: of an owner's
      `pop_bottom` and a thief's `pop_top` on a deque holding one task,
      exactly one gets the task. */
  lemma RaceHasOneWinner<T>(d: UDeque<T>, lost: bool)
    requires Valid(d) && |Contents(d)| == 1
    ensures lost ==>
      PopBottomFixed(d, lost).item == None && PopTop(d, true).item == Some(Contents(d)[0])
    ensures !lost ==>
      && PopBottomFixed(d, lost).item == Some(Contents(d)[0])
      && PopTop(PopBottomFixed(d, lost).d, true).item == None
    ensures Contents(PopBottomFixed(d, lost).d) == []
  {
  }

  /** As written, losing the single-element race leaves a phantom task:
      after pushes of a and b and an owner pop of b, the owner's pop of a
      loses to a thief, and the next owner pop hands out b a second time. */
  lemma AsWrittenLostRaceDuplicates<T>(a: T, b: T)
    ensures
      var d2 := PushBottom(PushBottom(Init(), a), b);
      var p3 := PopBottom(d2, false);
      var p4 := PopBottom(p3.d, true);
      var p5 := PopBottom(p4.d, false);
      && p3.item == Some(b)
      && PopTop(p3.d, true).item == Some(a)
      && p4.item == None
      && p5.item == Some(b)
  {
    var d0: UDeque<T> := Init();
    var d1 := PushBottom(d0, a);
    var d2 := PushBottom(d1, b);
    assert CA.Get(d2.tasks, 1) == Some(b);
    var p3 := PopBottom(d2, false);
    assert p3.d.tasks == d2.tasks;
    var p4 := PopBottom(p3.d, true);
    assert p4.d == UDeque(1, 2, d2.tasks);
  }
}

=== FILE: circular_array.dfy ===
/** The power-of-two ring buffer behind the Chase-Lev deque
    (`circular_array` in deque.h).  A slot that was never written holds
    `None`; C++ leaves it uninitialised. */
module CircularArray {
  import opened Common

  datatype CArray<T> = CArray(logSize: nat, ring: seq<Option<T>>)

  /** The number of slots, `1 << log_size`. */
  function Size<T>(a: CArray<T>): nat
  {
    Pow2(a.logSize)
  }

  /** The ring really has `1 << log_size` slots. */
  ghost predicate Valid<T>(a: CArray<T>)
  {
    |a.ring| == Size(a)
  }

  /** `new circular_array(size)`: every slot uninitialised. */
  function New<T>(logSize: nat): (a: CArray<T>)
    ensures Valid(a) && a.logSize == logSize
    ensures forall i :: 0 <= i < Size(a) ==> a.ring[i] == None
  {
    var ring: seq<Option<T>> := seq(Pow2(logSize), _ => None);
    CArray(logSize, ring)
  }

  /** `get(i)` reads slot `i % size()`; the runtime only passes i >= 0. */
  function Get<T>(a: CArray<T>, i: int): Option<T>
    requires Valid(a) && i >= 0
  {
    a.ring[i % Size(a)]
  }

  /** `put(i, item)` writes slot `i % size()`.  The item is a slot value:
      `resize` copies slots that may never have been written. */
  function Put<T>(a: CArray<T>, i: int, x: Option<T>): (r: CArray<T>)
    requires Valid(a) && i >= 0
    ensures Valid(r) && r.logSize == a.logSize
    ensures Get(r, i) == x
    ensures forall j :: j >= 0 && j % Size(a) != i % Size(a) ==> Get(r, j) == Get(a, j)
  {
    a.(ring := a.ring[i % Size(a) := x])
  }

  /** The copy loop of `resize`: `for (i = lo; i < hi; i++) dst->put(i, get(i))`.
      Every index of [lo, hi) reads back what `src` held there, and slots of
      indices just below `lo` are left alone. */
  function CopyRange<T>(src: CArray<T>, dst: CArray<T>, lo: int, hi: int): (r: CArray<T>)
    requires Valid(src) && Valid(dst)
    requires 0 <= lo && hi - lo <= Size(dst)
    ensures Valid(r) && r.logSize == dst.logSize
    ensures forall j :: lo <= j < hi ==> Get(r, j) == Get(src, j)
    ensures forall j :: 0 <= j && hi - Size(dst) <= j < lo ==> Get(r, j) == Get(dst, j)
    decreases hi - lo
  {
    if lo >= hi then dst
    else
      var dst' := Put(dst, lo, Get(src, lo));
      var r := CopyRange(src, dst', lo + 1, hi);
      assert Get(r, lo) == Get(src, lo) by {
        assert Get(r, lo) == Get(dst', lo);
      }
      assert forall j :: 0 <= j && hi - Size(dst) <= j < lo ==> Get(r, j) == Get(dst, j) by {
        forall j | 0 <= j && hi - Size(dst) <= j < lo
          ensures Get(r, j) == Get(dst, j)
        {
          ModDistinct(j, lo, Size(dst));
        }
      }
      r
  }

  /** `resize(top, bottom)`: a ring of twice the capacity holding the live
      range [top, bottom) at the same logical indices. */
  function Resize<T>(a: CArray<T>, top: int, bottom: int): (r: CArray<T>)
    requires Valid(a) && 0 <= top && bottom - top <= 2 * Size(a)
    ensures Valid(r) && r.logSize == a.logSize + 1 && Size(r) == 2 * Size(a)
    ensures forall j :: top <= j < bottom ==> Get(r, j) == Get(a, j)
  {
    CopyRange(a, New(a.logSize + 1), top, bottom)
  }
}

=== FILE: common.dfy ===
/** Shared vocabulary: the optional value that stands for a possibly-NULL
    pointer in the runtime (a task handle, a deque handle, a victim link). */
module Common {

  datatype Option<+T> = None | Some(value: T)

  /** 2^n, the capacity of a ring whose log-size is n. */
  function Pow2(n: nat): (r: nat)
    ensures r >= 1
  {
    if n == 0 then 1 else 2 * Pow2(n - 1)
  }

  /** a * b by repeated addition.  The topology's cpu arithmetic goes
      through it, so that a claim about cpu ids is settled by the lemmas
      below rather than by nonlinear arithmetic. */
  function Mul(a: nat, b: nat): nat
  {
    if a == 0 then 0 else b + Mul(a - 1, b)
  }

  lemma {:induction false} MulIsProduct(a: nat, b: nat)
    ensures Mul(a, b) == a * b
  {
    if a > 0 {
      MulIsProduct(a - 1, b);
      assert (a - 1) * b + b == a * b;
    }
  }

  /** Two distinct non-negative indices closer than n land on different
      slots of a ring of size n. */
  lemma ModDistinct(i: int, j: int, n: int)
    requires 0 <= i < j && j - i < n
    ensures i % n != j % n
  {
    if i % n == j % n {
      var d := j / n - i / n;
      assert j - i == n * d by {
        assert i == n * (i / n) + i % n;
        assert j == n * (j / n) + j % n;
        assert n * (j / n) - n * (i / n) == n * d;
      }
      MulBetween(n, d);
    }
  }

  /** No multiple of n lies strictly between 0 and n. */
  lemma MulBetween(n: int, d: int)
    requires n > 0
    ensures !(0 < n * d < n)
  {
    if d <= 0 {
      assert n * d <= 0;
    } else {
      assert n * d == n + n * (d - 1);
      assert n * (d - 1) >= 0;
    }
  }

  /** A subset has at most as many elements as its superset. */
  lemma SubsetCard<T>(a: set<T>, b: set<T>)
    requires a <= b
    ensures |a| <= |b|
  {
    assert b == a + (b - a);
  }
}

=== FILE: deque_spec.dfy ===
/** The logical deque every backend in deque.h implements: a sequence
    ordered from `top` (oldest, index 0) to `bottom` (newest, last).  The
    owner pushes and pops at the bottom, a thief takes from the top.  Each
    backend's abstraction function maps its state onto this sequence. */
module DequeSpec {
  import opened Common

  /** Owner and thief operations, applied one atomic step at a time. */
  datatype Op<T> = PushBottom(x: T) | PopBottom | PopTop

  /** What a pop returned (None is NULL) and what is left. */
  datatype Popped<T> = Popped(rest: seq<T>, item: Option<T>)

  /** A run: the final contents and one output per operation
      (a push outputs None). */
  datatype Trace<T> = Trace(final: seq<T>, outs: seq<Option<T>>)

  function Append<T>(s: seq<T>, x: T): seq<T>
  {
    s + [x]
  }

  function PopLast<T>(s: seq<T>): Popped<T>
  {
    if |s| == 0 then Popped(s, None) else Popped(s[..|s| - 1], Some(s[|s| - 1]))
  }

  function PopFirst<T>(s: seq<T>): Popped<T>
  {
    if |s| == 0 then Popped(s, None) else Popped(s[1..], Some(s[0]))
  }

  function Step<T>(s: seq<T>, op: Op<T>): Popped<T>
  {
    match op
    case PushBottom(x) => Popped(Append(s, x), None)
    case PopBottom => PopLast(s)
    case PopTop => PopFirst(s)
  }

  function Run<T>(s: seq<T>, ops: seq<Op<T>>): (t: Trace<T>)
    ensures |t.outs| == |ops|
    decreases ops
  {
    if |ops| == 0 then Trace(s, [])
    else
      var p := Step(s, ops[0]);
      var t := Run(p.rest, ops[1..]);
      Trace(t.final, [p.item] + t.outs)
  }

  /** The items the pushes of a run hand in. */
  function Pushed<T>(ops: seq<Op<T>>): seq<T>
  {
    if |ops| == 0 then []
    else (if ops[0].PushBottom? then [ops[0].x] else []) + Pushed(ops[1..])
  }

  /** The items the pops of a run hand out (NULL results dropped). */
  function Taken<T>(outs: seq<Option<T>>): seq<T>
  {
    if |outs| == 0 then []
    else (if outs[0].Some? then [outs[0].value] else []) + Taken(outs[1..])
  }

  function ItemSeq<T>(o: Option<T>): seq<T>
  {
    if o.Some? then [o.value] else []
  }

  /** One step moves items between the deque and the outputs, never
      creating or dropping one. */
  lemma StepConserves<T>(s: seq<T>, op: Op<T>)
    ensures multiset(s) + multiset(if op.PushBottom? then [op.x] else [])
         == multiset(Step(s, op).rest) + multiset(ItemSeq(Step(s, op).item))
  {
    match op
    case PushBottom(x) =>
    case PopBottom =>
      if |s| > 0 {
        assert s == Step(s, op).rest + [s[|s| - 1]];
      }
    case PopTop =>
      if |s| > 0 {
        assert s == [s[0]] + Step(s, op).rest;
      }
  }

  /** Conservation: every item present or pushed is, after any run, either
      handed out exactly once or still in the deque; nothing is lost or
      duplicated. */
  lemma {:induction false} Conservation<T>(s: seq<T>, ops: seq<Op<T>>)
    ensures multiset(s) + multiset(Pushed(ops))
         == multiset(Run(s, ops).final) + multiset(Taken(Run(s, ops).outs))
    decreases ops
  {
    if |ops| > 0 {
      var p := Step(s, ops[0]);
      var t := Run(p.rest, ops[1..]);
      var outs := Run(s, ops).outs;
      var head: seq<T> := if ops[0].PushBottom? then [ops[0].x] else [];
      Conservation(p.rest, ops[1..]);
      StepConserves(s, ops[0]);
      assert Run(s, ops).final == t.final;
      assert outs[1..] == t.outs;
      assert Taken(outs) == ItemSeq(p.item) + Taken(t.outs);
      assert Pushed(ops) == head + Pushed(ops[1..]);
      calc {
        multiset(s) + multiset(Pushed(ops));
        multiset(s) + multiset(head) + multiset(Pushed(ops[1..]));
        multiset(p.rest) + multiset(ItemSeq(p.item)) + multiset(Pushed(ops[1..]));
        multiset(t.final) + multiset(Taken(t.outs)) + multiset(ItemSeq(p.item));
        multiset(t.final) + multiset(Taken(outs));
      }
    }
  }

  /** Owner-only LIFO: a push followed by a bottom pop hands back the
      pushed item and leaves the deque as it was. */
  lemma PushThenPopBottom<T>(s: seq<T>, x: T)
    ensures Run(s, [PushBottom(x), PopBottom]) == Trace(s, [None, Some(x)])
  {
    var ops: seq<Op<T>> := [PushBottom(x), PopBottom];
    assert ops[1..] == [PopBottom];
    assert ops[1..][1..] == [];
    assert (s + [x])[..|s|] == s;
    var t2 := Run(s, []);
    var t1 := Run(s + [x], [PopBottom]);
    assert t1 == Trace(s, [Some(x)]);
  }
}

=== FILE: locked_deque.dfy ===
/** `std_deque` of deque.h: the mutex-protected baseline over `std::deque`.
    The owner works at the front, thieves take from the back.  The mutex
    makes every operation one atomic step; the only concurrency left
    visible is `pop_top`'s `try_lock`, whose outcome is an input. */
module LockedDeque {
  import opened Common
  import Spec = DequeSpec

  /** `items[0]` is the front (newest); the back is the oldest task. */
  datatype SDeque<T> = SDeque(items: seq<T>)

  datatype Popped<T> = Popped(d: SDeque<T>, item: Option<T>)

  /** Abstraction: oldest first, so the back of `std::deque` comes first. */
  function Contents<T>(d: SDeque<T>): seq<T>
  {
    seq(|d.items|, k requires 0 <= k < |d.items| => d.items[|d.items| - 1 - k])
  }

  /** `empty()` (deque.h:74-78). */
  function Empty<T>(d: SDeque<T>): (r: bool)
    ensures r <==> Contents(d) == []
  {
    |d.items| == 0
  }

  /** `push_bottom` and `push_bottom_safe` (deque.h:62-72): `push_front`. */
  function PushBottom<T>(d: SDeque<T>, x: T): (r: SDeque<T>)
    ensures Contents(r) == Spec.Append(Contents(d), x)
    ensures r.items[0] == x
  {
    var r := SDeque([x] + d.items);
    assert Contents(r) == Contents(d) + [x];
    r
  }

  /** `pop_bottom` (deque.h:27-42): NULL when empty, else the front. */
  function PopBottom<T>(d: SDeque<T>): (r: Popped<T>)
    ensures Contents(r.d) == Spec.PopLast(Contents(d)).rest
    ensures r.item == Spec.PopLast(Contents(d)).item
  {
    if |d.items| == 0 then Popped(d, None)
    else
      var r := SDeque(d.items[1..]);
      assert Contents(r) == Contents(d)[..|Contents(d)| - 1];
      Popped(r, Some(d.items[0]))
  }

  /** `pop_top` (deque.h:44-60).  `locked` is the outcome of `try_lock`:
      when another thread holds the mutex the steal returns NULL. */
  function PopTop<T>(d: SDeque<T>, locked: bool): (r: Popped<T>)
    ensures !locked ==> r == Popped(d, None)
    ensures locked ==>
      Contents(r.d) == Spec.PopFirst(Contents(d)).rest && r.item == Spec.PopFirst(Contents(d)).item
  {
    if !locked then Popped(d, None)
    else if |d.items| == 0 then Popped(d, None)
    else
      var r := SDeque(d.items[..|d.items| - 1]);
      assert Contents(r) == Contents(d)[1..];
      Popped(r, Some(d.items[|d.items| - 1]))
  }

  datatype STrace<T> = STrace(final: SDeque<T>, outs: seq<Option<T>>)

  function Apply<T>(d: SDeque<T>, op: Spec.Op<T>): (r: Popped<T>)
    ensures Contents(r.d) == Spec.Step(Contents(d), op).rest
    ensures r.item == Spec.Step(Contents(d), op).item
  {
    match op
    case PushBottom(x) => Popped(PushBottom(d, x), None)
    case PopBottom => PopBottom(d)
    case PopTop => PopTop(d, true)
  }

  /** Whenever every `try_lock` succeeds, `std_deque` behaves exactly like
      the reference deque. */
  function RunS<T>(d: SDeque<T>, ops: seq<Spec.Op<T>>): (t: STrace<T>)
    ensures Contents(t.final) == Spec.Run(Contents(d), ops).final
    ensures t.outs == Spec.Run(Contents(d), ops).outs
    decreases ops
  {
    if |ops| == 0 then STrace(d, [])
    else
      var p := Apply(d, ops[0]);
      var t := RunS(p.d, ops[1..]);
      STrace(t.final, [p.item] + t.outs)
  }
}

=== FILE: topology_example.dfy ===
/** A machine on which the as-written `link_thieves` (include/topology.hpp)
    builds a victim cycle: one socket, two hardware threads and
    `hardware_concurrency()` == 6, as the constructor itself sets up, with
    one thief per worker.  With a single socket the thread threshold makes
    no difference (breaking out of the socket loop and finishing it both
    move on to the next hardware thread), so it is left free.  Every lemma
    takes the machine as a parameter `cfg` of that shape, and follows the
    constructor one loop turn at a time. */
module TopologyExample {
  import opened Common
  import opened TopologyMap
  import opened TopologyLinks

  /** One socket, two hardware threads, three cores; `nworkers` 0 (one
      worker per cpu), `max_thieves` 1, any `thr_threshold`. */
  predicate IsMachine(cfg: Config)
  {
    && cfg.nsockets == 1 && cfg.nthreads == 2 && cfg.ncores == 3
    && cfg.nworkers == 0 && cfg.maxThieves == 1
  }

  /** The map after each worker `build_map` places: hardware thread 0
      ascending (cpus 0, 1, 2), then hardware thread 1 descending (cpus 5,
      4, 3). */
  const M0: map<nat, WorkerT> := map[]
  const M1: map<nat, WorkerT> := M0[0 := WorkerT(0, 0, 0, 0, UNDEF, 0)]
  const M2: map<nat, WorkerT> := M1[1 := WorkerT(1, 0, 0, 1, UNDEF, 0)]
  const M3: map<nat, WorkerT> := M2[2 := WorkerT(2, 0, 0, 2, UNDEF, 0)]
  const M4: map<nat, WorkerT> := M3[5 := WorkerT(3, 0, 1, 2, UNDEF, 0)]
  const M5: map<nat, WorkerT> := M4[4 := WorkerT(4, 0, 1, 1, UNDEF, 0)]
  const M6: map<nat, WorkerT> := M5[3 := WorkerT(5, 0, 1, 0, UNDEF, 0)]

  lemma WalkEnd(cfg: Config)
    requires IsMachine(cfg)
    ensures Walk(cfg, 1, 0, 2, 1, 5, M5) == (M6, 0)
  {
    assert Walk(cfg, 2, 0, 0, 0, 6, M6) == (M6, 0);
    assert Walk(cfg, 1, 1, 0, 0, 6, M6) == (M6, 0);
    assert Walk(cfg, 1, 0, 3, 0, 6, M6) == (M6, 0);
  }

  lemma WalkRow1(cfg: Config)
    requires IsMachine(cfg)
    ensures Walk(cfg, 1, 0, 0, 3, 3, M3) == (M6, 0)
  {
    WalkEnd(cfg);
    assert Walk(cfg, 1, 0, 1, 2, 4, M4) == (M6, 0);
  }

  lemma WalkRow0(cfg: Config)
    requires IsMachine(cfg)
    ensures Walk(cfg, 0, 0, 1, 5, 1, M1) == (M6, 0)
  {
    WalkRow1(cfg);
    assert Walk(cfg, 0, 1, 0, 3, 3, M3) == (M6, 0);
    assert Walk(cfg, 0, 0, 3, 3, 3, M3) == (M6, 0);
    assert Walk(cfg, 0, 0, 2, 4, 2, M2) == (M6, 0);
  }

  lemma WalkStart(cfg: Config)
    requires IsMachine(cfg)
    ensures Walk(cfg, 0, 0, 0, 6, 0, M0) == (M6, 0)
  {
    WalkRow0(cfg);
  }

  /** `build_map` places all six workers. */
  lemma MachineMap(cfg: Config)
    requires IsMachine(cfg)
    ensures NWorkers(cfg) == 6 && Total(cfg) == 6
    ensures BuildMap(cfg, NWorkers(cfg)) == Built(M6, 6)
  {
    MachineTotal(cfg);
    BuildMapMachine(cfg, 6);
  }

  lemma BuildMapMachine(cfg: Config, n: nat)
    requires IsMachine(cfg) && n == 6
    ensures BuildMap(cfg, n).workers == M6
    ensures BuildMap(cfg, n).nworkers == 6
  {
    WalkStart(cfg);
    assert Walk(cfg, 0, 0, 0, n, 0, map[]) == (M6, 0);
  }

  lemma MachineTotal(cfg: Config)
    requires IsMachine(cfg)
    ensures NWorkers(cfg) == 6 && Total(cfg) == 6
  {
  }

  /** The map after each turn of the as-written `link_thieves`. */
  const L1: map<nat, WorkerT> := M6[1 := WorkerT(1, 0, 0, 1, 0, 0)]
  const L2: map<nat, WorkerT> := L1[2 := WorkerT(2, 0, 0, 2, 1, 0)]
  const L3: map<nat, WorkerT> := L2[5 := WorkerT(3, 0, 1, 2, 2, 1)]
  const L4: map<nat, WorkerT> := L3[4 := WorkerT(4, 0, 1, 1, 3, 0)]
  const L5: map<nat, WorkerT> := L4[3 := WorkerT(5, 0, 1, 0, 4, 0)]

  /** cpu 0 takes cpu 1, the next core up, as its thief. */
  lemma Link0(cfg: Config)
    requires IsMachine(cfg)
    ensures LinkStep(cfg, M6, 0, false) == L1
  {
    var w := M6[0];
    assert w.cor == 0;
    assert LinkThief(M6, 0, 1, 0) == Linked(L1, true);
    assert SearchCoreUp(cfg, M6, 0, w, 1) == Linked(L1, true);
    assert CrossLink(cfg, M6, 0) == Linked(M6, false);
    assert ThreadLoop(cfg, L1, 0, w, 0) == (L1, 0);
    assert CoreLoop(cfg, L1, 0, w, 0, false) == (L1, 0);
    assert Searches(cfg, M6, 0, w, 1, false) == (L1, 0);
  }

  /** cpu 1 takes cpu 2. */
  lemma Link1(cfg: Config)
    requires IsMachine(cfg)
    ensures LinkStep(cfg, L1, 1, false) == L2
  {
    var w := L1[1];
    assert LinkThief(L1, 1, 2, 0) == Linked(L2, true);
    assert SearchCoreUp(cfg, L1, 1, w, 2) == Linked(L2, true);
    assert Searches(cfg, L1, 1, w, 1, false) == (L2, 0);
  }

  /** cpu 2 has no core above it and takes cpu 5, its sibling hardware
      thread, instead. */
  lemma Link2(cfg: Config)
    requires IsMachine(cfg)
    ensures LinkStep(cfg, L2, 2, false) == L3
  {
    var w := L2[2];
    assert SearchCoreUp(cfg, L2, 2, w, 3) == Linked(L2, false);
    assert LinkThief(L2, 2, 5, 1) == Linked(L3, true);
    assert SearchThread(cfg, L2, 2, w, 1) == Linked(L3, true);
    assert ThreadLoop(cfg, L2, 2, w, 1) == (L3, 0);
    assert Searches(cfg, L2, 2, w, 1, false) == (L3, 0);
  }

  /** cpu 3 (hardware thread 1, core 0) searches upward and takes cpu 4,
      built before it. */
  lemma Link3(cfg: Config)
    requires IsMachine(cfg)
    ensures LinkStep(cfg, L3, 3, false) == L4
  {
    var w := L3[3];
    assert w == WorkerT(5, 0, 1, 0, UNDEF, 0);
    assert GetCpuId(cfg, 0, 1, 1) == 4;
    assert LinkThief(L3, 3, 4, 0) == Linked(L4, true);
    assert SearchCoreUp(cfg, L3, 3, w, 1) == Linked(L4, true);
    assert Searches(cfg, L3, 3, w, 1, false) == (L4, 0);
  }

  /** cpu 4 links its lower neighbour, cpu 3. */
  lemma Link4(cfg: Config)
    requires IsMachine(cfg)
    ensures LinkStep(cfg, L4, 4, false) == L5
  {
    var w := L4[4];
    assert w == WorkerT(4, 0, 1, 1, 3, 0);
    assert GetCpuId(cfg, 0, 1, 0) == 3;
    assert LinkThief(L4, 4, 3, 0) == Linked(L5, true);
  }

  /** cpu 5's lower neighbour, cpu 4, already has a victim. */
  lemma Link5(cfg: Config)
    requires IsMachine(cfg)
    ensures LinkStep(cfg, L5, 5, false) == L5
  {
    var w := L5[5];
    assert w == WorkerT(3, 0, 1, 2, 2, 1);
    assert GetCpuId(cfg, 0, 1, 1) == 4;
    assert LinkThief(L5, 5, 4, 0) == Linked(L5, false);
  }

  lemma LinkAllMachine(cfg: Config)
    requires IsMachine(cfg)
    ensures LinkAll(cfg, M6, 0, 6, false) == L5
  {
    Link5(cfg);
    assert LinkAll(cfg, L5, 5, 6, false) == L5;
    Link4(cfg);
    assert LinkAll(cfg, L4, 4, 6, false) == L5;
    Link3(cfg);
    assert LinkAll(cfg, L3, 3, 6, false) == L5;
    Link2(cfg);
    assert LinkAll(cfg, L2, 2, 6, false) == L5;
    Link1(cfg);
    assert LinkAll(cfg, L1, 1, 6, false) == L5;
    Link0(cfg);
  }

  lemma BuildMachine(cfg: Config)
    requires IsMachine(cfg)
    ensures Build(cfg, false).workers == L5
  {
    MachineMap(cfg);
    LinkAllMachine(cfg);
  }

  lemma CycleInL5()
    ensures 3 in L5 && 4 in L5 && L5[3].victim == 4 && L5[4].victim == 3
    ensures Follow(L5, 3, 2) == Some(3)
  {
    assert L5[4].victim == 3;
    assert Follow(L5, 4, 1) == Some(3);
  }

  /** Finding: as written, the topology of this machine makes cpus 3 and 4
      each other's victim, so following victim links from cpu 3 comes back
      to cpu 3 after two steps. */
  lemma AsWrittenVictimCycle(cfg: Config)
    requires IsMachine(cfg)
    ensures var m := Build(cfg, false).workers;
      && 3 in m && 4 in m && m[3].victim == 4 && m[4].victim == 3
      && Follow(m, 3, 2) == Some(3)
  {
    BuildMachine(cfg);
    CycleInL5();
  }

  /** The corrected topology of the same machine has no such cycle. */
  lemma FixedHasNoCycle(cfg: Config)
    requires IsMachine(cfg)
    ensures var m := Build(cfg, true).workers;
      forall x, k :: x in m && k >= 1 ==> Follow(m, x, k) != Some(x)
  {
    TopologyIsForest(cfg);
  }
}

=== FILE: topology_links.dfy ===
/** The victim graph of `topology` (include/topology.hpp:144-210):
    `link_thieves` walks the worker map in ascending cpu order and, for each
    worker, installs thieves with `link_thief`, preferring the next socket,
    then the neighbouring core, the next hardware thread and the next core.
    A thief records the worker it steals from in its `victim` field. */
module TopologyLinks {
  import opened Common
  import opened TopologyMap

  /** The map after a `link_thief`-style call and the call's answer. */
  datatype Linked = Linked(m: map<nat, WorkerT>, ok: bool)

  /** The workers that steal from v. */
  ghost function ThievesOf(m: map<nat, WorkerT>, v: nat): set<nat>
  {
    set k | k in m && m[k].victim == v
  }

  predicate SameWorker(a: WorkerT, b: WorkerT)
  {
    a.id == b.id && a.soc == b.soc && a.thr == b.thr && a.cor == b.cor
  }

  /** m' only assigns victims: same keys, same workers, and a victim once
      set is kept together with its flags. */
  ghost predicate Settled(m: map<nat, WorkerT>, m': map<nat, WorkerT>)
  {
    && m'.Keys == m.Keys
    && forall k :: k in m ==> SameWorker(m[k], m'[k]) && (m[k].victim != UNDEF ==> m'[k] == m[k])
  }

  /** m' only gives thieves to v. */
  ghost predicate GrowsFor(m: map<nat, WorkerT>, m': map<nat, WorkerT>, v: nat)
  {
    Settled(m, m') && forall k :: k in m ==> m'[k] == m[k] || m'[k].victim == v
  }

  /** Every entry sits at the cpu id of its in-range coordinates. */
  ghost predicate Placed(cfg: Config, m: map<nat, WorkerT>)
  {
    forall k :: k in m ==> InRange(cfg, m[k].soc, m[k].thr, m[k].cor) && k == GetCpuId(cfg, m[k].soc, m[k].thr, m[k].cor)
  }

  /** Each thief that m' adds to victim i is another worker and, when
      `ordered`, one that `build_map` placed after i. */
  ghost predicate NewLinks(cfg: Config, m: map<nat, WorkerT>, m': map<nat, WorkerT>, i: nat, ordered: bool)
    requires i in m && m.Keys <= m'.Keys
  {
    forall k :: k in m && m'[k] != m[k] ==> k != i && (ordered ==> BuiltBefore(cfg, m[i], m'[k]))
  }

  /** `link_thief` (topology.hpp:175-188): fails, changing nothing, when the
      thief is absent or already has a victim; otherwise sets exactly that
      thief's victim and flags. */
  function LinkThief(m: map<nat, WorkerT>, victim: nat, thief: nat, flags: nat): (r: Linked)
    ensures r.ok <==> thief in m && m[thief].victim == UNDEF
    ensures !r.ok ==> r.m == m
    ensures r.ok ==>
      && r.m.Keys == m.Keys && SameWorker(m[thief], r.m[thief])
      && r.m[thief].victim == victim && r.m[thief].flags == flags
      && forall k :: k in m && k != thief ==> r.m[k] == m[k]
  {
    if thief !in m then Linked(m, false)
    else if m[thief].victim != UNDEF then Linked(m, false)
    else Linked(m[thief := m[thief].(victim := victim, flags := flags)], true)
  }

  /** A `link_thief` call only gives thieves to its victim, and a
      successful one gives it exactly one more. */
  lemma LinkThiefCounts(m: map<nat, WorkerT>, victim: nat, thief: nat, flags: nat)
    requires victim != UNDEF
    ensures var r := LinkThief(m, victim, thief, flags);
      && GrowsFor(m, r.m, victim)
      && |ThievesOf(r.m, victim)| == |ThievesOf(m, victim)| + (if r.ok then 1 else 0)
  {
    var r := LinkThief(m, victim, thief, flags);
    if r.ok {
      assert ThievesOf(r.m, victim) == ThievesOf(m, victim) + {thief};
    }
  }

  /** An entry found at the cpu id of in-range coordinates has those
      coordinates. */
  lemma PlacedAt(cfg: Config, m: map<nat, WorkerT>, soc: nat, thr: nat, cor: nat)
    requires Placed(cfg, m) && InRange(cfg, soc, thr, cor) && GetCpuId(cfg, soc, thr, cor) in m
    ensures var w := m[GetCpuId(cfg, soc, thr, cor)]; w.soc == soc && w.thr == thr && w.cor == cor
  {
    var k := GetCpuId(cfg, soc, thr, cor);
    GetCpuIdInjective(cfg, m[k].soc, m[k].thr, m[k].cor, soc, thr, cor);
  }

  /** Linking one in-range thief to victim i keeps every invariant the
      searches below promise. */
  lemma LinkOne(cfg: Config, m: map<nat, WorkerT>, i: nat, soc: nat, thr: nat, cor: nat, flags: nat, ordered: bool)
    requires Placed(cfg, m) && i in m && i != UNDEF && InRange(cfg, soc, thr, cor)
    requires (soc, thr, cor) != (m[i].soc, m[i].thr, m[i].cor)
    requires ordered ==> VisitedBefore(cfg, m[i], thr, soc, Sweep(cfg, thr, cor))
    ensures SearchPost(cfg, m, i, LinkThief(m, i, GetCpuId(cfg, soc, thr, cor), flags), ordered)
  {
    var t := GetCpuId(cfg, soc, thr, cor);
    LinkThiefCounts(m, i, t, flags);
    if t in m {
      PlacedAt(cfg, m, soc, thr, cor);
    }
  }

  /** `set_thief_at_next_thread` (topology.hpp:190-199) from thread n on:
      the first hardware thread above w's, on w's socket and core, whose
      worker still has no victim. */
  function SearchThread(cfg: Config, m: map<nat, WorkerT>, i: nat, w: WorkerT, n: nat): Linked
    decreases cfg.nthreads - n
  {
    if n >= cfg.nthreads then Linked(m, false)
    else
      var l := LinkThief(m, i, GetCpuId(cfg, w.soc, n, w.cor), 1);
      if l.ok then l else SearchThread(cfg, m, i, w, n + 1)
  }

  /** `set_thief_at_next_core` (topology.hpp:201-210) from core n upward on
      w's socket and hardware thread. */
  function SearchCoreUp(cfg: Config, m: map<nat, WorkerT>, i: nat, w: WorkerT, n: nat): Linked
    decreases cfg.ncores - n
  {
    if n >= cfg.ncores then Linked(m, false)
    else
      var l := LinkThief(m, i, GetCpuId(cfg, w.soc, w.thr, n), 0);
      if l.ok then l else SearchCoreUp(cfg, m, i, w, n + 1)
  }

  /** The corrected core search on a hardware thread above the first: from
      core n downward, the direction in which `build_map` numbers that row. */
  function SearchCoreDown(cfg: Config, m: map<nat, WorkerT>, i: nat, w: WorkerT, n: int): Linked
    decreases n + 1
  {
    if n < 0 then Linked(m, false)
    else
      var l := LinkThief(m, i, GetCpuId(cfg, w.soc, w.thr, n), 0);
      if l.ok then l else SearchCoreDown(cfg, m, i, w, n - 1)
  }

  /** The next-core search: as written (`directed` false) always upward;
      corrected (`directed` true) downward on hardware threads above the
      first. */
  function SearchCore(cfg: Config, m: map<nat, WorkerT>, i: nat, w: WorkerT, directed: bool): Linked
  {
    if directed && w.thr > 0 then SearchCoreDown(cfg, m, i, w, w.cor - 1)
    else SearchCoreUp(cfg, m, i, w, w.cor + 1)
  }

  /** What a search for a thief of worker i (with coordinates w) may assume. */
  ghost predicate SearchPre(cfg: Config, m: map<nat, WorkerT>, i: nat, w: WorkerT)
  {
    Placed(cfg, m) && i in m && i != UNDEF && SameWorker(m[i], w) && InRange(cfg, w.soc, w.thr, w.cor)
  }

  /** What a search for a thief of i promises: it links at most one thief,
      an unlinked worker other than i, and when `ordered` one built after i. */
  ghost predicate SearchPost(cfg: Config, m: map<nat, WorkerT>, i: nat, r: Linked, ordered: bool)
    requires i in m
  {
    && Placed(cfg, r.m) && GrowsFor(m, r.m, i) && NewLinks(cfg, m, r.m, i, ordered)
    && |ThievesOf(r.m, i)| == |ThievesOf(m, i)| + (if r.ok then 1 else 0)
  }

  lemma {:induction false} SearchThreadLinks(cfg: Config, m: map<nat, WorkerT>, i: nat, w: WorkerT, n: nat)
    requires SearchPre(cfg, m, i, w) && n > w.thr
    ensures SearchPost(cfg, m, i, SearchThread(cfg, m, i, w, n), true)
    decreases cfg.nthreads - n
  {
    if n < cfg.nthreads {
      LinkOne(cfg, m, i, w.soc, n, w.cor, 1, true);
      if !LinkThief(m, i, GetCpuId(cfg, w.soc, n, w.cor), 1).ok {
        SearchThreadLinks(cfg, m, i, w, n + 1);
      }
    }
  }

  lemma {:induction false} SearchCoreUpLinks(cfg: Config, m: map<nat, WorkerT>, i: nat, w: WorkerT, n: nat)
    requires SearchPre(cfg, m, i, w) && n > w.cor
    ensures SearchPost(cfg, m, i, SearchCoreUp(cfg, m, i, w, n), w.thr == 0)
    decreases cfg.ncores - n
  {
    if n < cfg.ncores {
      LinkOne(cfg, m, i, w.soc, w.thr, n, 0, w.thr == 0);
      if !LinkThief(m, i, GetCpuId(cfg, w.soc, w.thr, n), 0).ok {
        SearchCoreUpLinks(cfg, m, i, w, n + 1);
      }
    }
  }

  lemma {:induction false} SearchCoreDownLinks(cfg: Config, m: map<nat, WorkerT>, i: nat, w: WorkerT, n: int)
    requires SearchPre(cfg, m, i, w) && w.thr > 0 && n < w.cor
    ensures SearchPost(cfg, m, i, SearchCoreDown(cfg, m, i, w, n), true)
    decreases n + 1
  {
    if n >= 0 {
      LinkOne(cfg, m, i, w.soc, w.thr, n, 0, true);
      if !LinkThief(m, i, GetCpuId(cfg, w.soc, w.thr, n), 0).ok {
        SearchCoreDownLinks(cfg, m, i, w, n - 1);
      }
    }
  }

  /** The next-core search links at most one thief; the corrected search,
      and the as-written one on the first hardware thread, only links
      workers built after the victim. */
  lemma SearchCoreLinks(cfg: Config, m: map<nat, WorkerT>, i: nat, w: WorkerT, directed: bool)
    requires SearchPre(cfg, m, i, w)
    ensures SearchPost(cfg, m, i, SearchCore(cfg, m, i, w, directed), directed || w.thr == 0)
  {
    if directed && w.thr > 0 {
      SearchCoreDownLinks(cfg, m, i, w, w.cor - 1);
    } else {
      SearchCoreUpLinks(cfg, m, i, w, w.cor + 1);
    }
  }

  /** Links made one after the other for the same victim compose. */
  lemma NewLinksCompose(cfg: Config, m1: map<nat, WorkerT>, m2: map<nat, WorkerT>, m3: map<nat, WorkerT>, i: nat, o: bool)
    requires i in m1 && i != UNDEF
    requires GrowsFor(m1, m2, i) && GrowsFor(m2, m3, i)
    requires NewLinks(cfg, m1, m2, i, o) && NewLinks(cfg, m2, m3, i, o)
    ensures GrowsFor(m1, m3, i) && NewLinks(cfg, m1, m3, i, o)
  {
  }

  /** `while (left > 0 && set_thief_at_next_thread(i, w)) left--;`
      (topology.hpp:167-168); returns the map and the final `left`. */
  function ThreadLoop(cfg: Config, m: map<nat, WorkerT>, i: nat, w: WorkerT, left: nat): (map<nat, WorkerT>, nat)
    decreases left
  {
    if left == 0 then (m, 0)
    else
      var l := SearchThread(cfg, m, i, w, w.thr + 1);
      if !l.ok then (m, left) else ThreadLoop(cfg, l.m, i, w, left - 1)
  }

  /** `while (left > 0 && set_thief_at_next_core(i, w)) left--;`
      (topology.hpp:170-171). */
  function CoreLoop(cfg: Config, m: map<nat, WorkerT>, i: nat, w: WorkerT, left: nat, directed: bool): (map<nat, WorkerT>, nat)
    decreases left
  {
    if left == 0 then (m, 0)
    else
      var l := SearchCore(cfg, m, i, w, directed);
      if !l.ok then (m, left) else CoreLoop(cfg, l.m, i, w, left - 1, directed)
  }

  /** What a loop of searches promises: each pass that links a thief
      lowers `left` by one, so the thieves added are `left` minus the
      final `left`. */
  ghost predicate LoopPost(cfg: Config, m: map<nat, WorkerT>, i: nat, left: nat, r: (map<nat, WorkerT>, nat), ordered: bool)
    requires i in m
  {
    && r.1 <= left && |ThievesOf(r.0, i)| == |ThievesOf(m, i)| + (left - r.1)
    && Placed(cfg, r.0) && GrowsFor(m, r.0, i) && NewLinks(cfg, m, r.0, i, ordered)
  }

  /** A search that links a thief, followed by the rest of the loop, is
      one more pass of the loop. */
  lemma LoopStep(cfg: Config, m: map<nat, WorkerT>, l: Linked, r: (map<nat, WorkerT>, nat), i: nat, left: nat, o: bool)
    requires i in m && i != UNDEF && left > 0 && l.ok
    requires SearchPost(cfg, m, i, l, o) && LoopPost(cfg, l.m, i, left - 1, r, o)
    ensures LoopPost(cfg, m, i, left, r, o)
  {
    NewLinksCompose(cfg, m, l.m, r.0, i, o);
  }

  lemma {:induction false} ThreadLoopLinks(cfg: Config, m: map<nat, WorkerT>, i: nat, w: WorkerT, left: nat)
    requires SearchPre(cfg, m, i, w)
    ensures LoopPost(cfg, m, i, left, ThreadLoop(cfg, m, i, w, left), true)
    decreases left
  {
    if left > 0 {
      var l := SearchThread(cfg, m, i, w, w.thr + 1);
      SearchThreadLinks(cfg, m, i, w, w.thr + 1);
      if l.ok {
        ThreadLoopLinks(cfg, l.m, i, w, left - 1);
        LoopStep(cfg, m, l, ThreadLoop(cfg, l.m, i, w, left - 1), i, left, true);
      }
    }
  }

  lemma {:induction false} CoreLoopLinks(cfg: Config, m: map<nat, WorkerT>, i: nat, w: WorkerT, left: nat, directed: bool)
    requires SearchPre(cfg, m, i, w)
    ensures LoopPost(cfg, m, i, left, CoreLoop(cfg, m, i, w, left, directed), directed || w.thr == 0)
    decreases left
  {
    if left > 0 {
      var l := SearchCore(cfg, m, i, w, directed);
      SearchCoreLinks(cfg, m, i, w, directed);
      if l.ok {
        CoreLoopLinks(cfg, l.m, i, w, left - 1, directed);
        LoopStep(cfg, m, l, CoreLoop(cfg, l.m, i, w, left - 1, directed), i, left, directed || w.thr == 0);
      }
    }
  }

  /** Worker v's first-core thief on the next socket was linked across
      sockets (flags 2, topology.hpp:152-156). */
  ghost predicate CrossLinked(cfg: Config, m: map<nat, WorkerT>, v: nat)
  {
    && v in m && m[v].thr == 0 && m[v].cor == 0 && m[v].soc + 1 < cfg.nsockets
    && var t := GetCpuId(cfg, m[v].soc + 1, 0, 0);
       t in m && m[t].victim == v && m[t].flags == 2
  }

  /** Bounded fan-out: at most `max_thieves` thieves, or at most 2 when
      the cross-socket link succeeded. */
  ghost predicate FanInOk(cfg: Config, m: map<nat, WorkerT>, v: nat)
  {
    |ThievesOf(m, v)| <= cfg.maxThieves || (CrossLinked(cfg, m, v) && |ThievesOf(m, v)| <= 2)
  }

  /** Lines 165-171 of `link_thieves`: one next-core search while `left`
      is positive, then the next-thread loop, then the next-core loop;
      returns the map and the final `left`. */
  function Searches(cfg: Config, m: map<nat, WorkerT>, i: nat, w: WorkerT, left: nat, directed: bool): (map<nat, WorkerT>, nat)
  {
    var l2 := if left > 0 then SearchCore(cfg, m, i, w, directed) else Linked(m, false);
    var left2 := if l2.ok then left - 1 else left;
    var r3 := ThreadLoop(cfg, l2.m, i, w, left2);
    CoreLoop(cfg, r3.0, i, w, r3.1, directed)
  }

  lemma SearchesLinks(cfg: Config, m: map<nat, WorkerT>, i: nat, w: WorkerT, left: nat, directed: bool)
    requires SearchPre(cfg, m, i, w)
    ensures LoopPost(cfg, m, i, left, Searches(cfg, m, i, w, left, directed), directed)
  {
    var l2 := if left > 0 then SearchCore(cfg, m, i, w, directed) else Linked(m, false);
    if left > 0 {
      SearchCoreLinks(cfg, m, i, w, directed);
    }
    assert SearchPost(cfg, m, i, l2, directed);
    var left2 := if l2.ok then left - 1 else left;
    var r3 := ThreadLoop(cfg, l2.m, i, w, left2);
    ThreadLoopLinks(cfg, l2.m, i, w, left2);
    assert LoopPost(cfg, l2.m, i, left2, r3, directed);
    var r4 := CoreLoop(cfg, r3.0, i, w, r3.1, directed);
    CoreLoopLinks(cfg, r3.0, i, w, r3.1, directed);
    assert LoopPost(cfg, r3.0, i, r3.1, r4, directed);
    NewLinksCompose(cfg, m, l2.m, r3.0, i, directed);
    NewLinksCompose(cfg, m, r3.0, r4.0, i, directed);
  }

  /** Lines 152-156 of `link_thieves`: the first worker of a socket takes
      the first worker of the next socket as a thief (flags 2). */
  function CrossLink(cfg: Config, m: map<nat, WorkerT>, i: nat): Linked
    requires i in m
  {
    var w := m[i];
    if w.thr == 0 && w.cor == 0 && w.soc + 1 < cfg.nsockets then LinkThief(m, i, GetCpuId(cfg, w.soc + 1, 0, 0), 2)
    else Linked(m, false)
  }

  /** The body of `link_thieves`' loop for the worker at key i
      (topology.hpp:147-171).  `directed` selects the corrected core search. */
  function LinkWorker(cfg: Config, m: map<nat, WorkerT>, i: nat, directed: bool): map<nat, WorkerT>
    requires i in m
  {
    var w := m[i];
    var l1 := CrossLink(cfg, m, i);
    var left1 := if l1.ok then 1 else cfg.maxThieves;
    if w.thr > 0 && w.cor > 0 && left1 == 1 then
      LinkThief(l1.m, i, GetCpuId(cfg, w.soc, w.thr, w.cor - 1), 0).m
    else
      Searches(cfg, l1.m, i, w, left1, directed).0
  }

  /** What one pass of `link_thieves` promises for worker i: only
      unlinked workers become thieves, and only of i; with the corrected
      core search each was built after i; and i's fan-out is bounded. */
  ghost predicate WorkerPost(cfg: Config, m: map<nat, WorkerT>, i: nat, r: map<nat, WorkerT>, directed: bool)
    requires i in m
  {
    Placed(cfg, r) && GrowsFor(m, r, i) && NewLinks(cfg, m, r, i, directed) && FanInOk(cfg, r, i)
  }

  /** The cross-socket link of lines 152-156 links at most one thief and,
      when it succeeds, leaves i cross-linked. */
  lemma CrossLinkStep(cfg: Config, m: map<nat, WorkerT>, i: nat, directed: bool)
    requires Placed(cfg, m) && i in m && i != UNDEF && ThievesOf(m, i) == {}
    ensures SearchPost(cfg, m, i, CrossLink(cfg, m, i), directed)
    ensures CrossLink(cfg, m, i).ok ==> CrossLinked(cfg, CrossLink(cfg, m, i).m, i)
    ensures !CrossLink(cfg, m, i).ok ==> CrossLink(cfg, m, i).m == m
  {
    CrossLinkKeeps(cfg, m, i, directed);
  }

  lemma CrossLinkKeeps(cfg: Config, m: map<nat, WorkerT>, i: nat, directed: bool)
    requires Placed(cfg, m) && i in m && i != UNDEF
    ensures SearchPost(cfg, m, i, CrossLink(cfg, m, i), directed)
  {
    var w := m[i];
    if w.thr == 0 && w.cor == 0 && w.soc + 1 < cfg.nsockets {
      assert InRange(cfg, w.soc + 1, 0, 0) && VisitedBefore(cfg, w, 0, w.soc + 1, 0);
      LinkOne(cfg, m, i, w.soc + 1, 0, 0, 2, directed);
      assert CrossLink(cfg, m, i) == LinkThief(m, i, GetCpuId(cfg, w.soc + 1, 0, 0), 2);
    } else {
      NoLink(cfg, m, i, directed);
      assert CrossLink(cfg, m, i) == Linked(m, false);
    }
  }

  /** A search that links nothing keeps every promise. */
  lemma NoLink(cfg: Config, m: map<nat, WorkerT>, i: nat, o: bool)
    requires Placed(cfg, m) && i in m
    ensures SearchPost(cfg, m, i, Linked(m, false), o)
  {
  }

  /** Lines 158-161: with one thief to find, a worker past core 0 of a
      later hardware thread takes its lower neighbour. */
  lemma NeighbourStep(cfg: Config, m: map<nat, WorkerT>, i: nat, directed: bool)
    requires Placed(cfg, m) && i in m && i != UNDEF && ThievesOf(m, i) == {}
    requires m[i].thr > 0 && m[i].cor > 0 && cfg.maxThieves == 1
    ensures WorkerPost(cfg, m, i, LinkWorker(cfg, m, i, directed), directed)
  {
    var w := m[i];
    assert CrossLink(cfg, m, i) == Linked(m, false);
    LinkOne(cfg, m, i, w.soc, w.thr, w.cor - 1, 0, true);
    assert LinkWorker(cfg, m, i, directed) == LinkThief(m, i, GetCpuId(cfg, w.soc, w.thr, w.cor - 1), 0).m;
  }

  /** Lines 165-171: otherwise the searches run with `max_thieves` thieves
      to find, or one after a cross-socket link. */
  lemma SearchStep(cfg: Config, m: map<nat, WorkerT>, i: nat, directed: bool)
    requires Placed(cfg, m) && i in m && i != UNDEF && ThievesOf(m, i) == {}
    requires !(m[i].thr > 0 && m[i].cor > 0 && cfg.maxThieves == 1)
    ensures WorkerPost(cfg, m, i, LinkWorker(cfg, m, i, directed), directed)
  {
    var w := m[i];
    var l1 := CrossLink(cfg, m, i);
    CrossLinkStep(cfg, m, i, directed);
    var left1 := if l1.ok then 1 else cfg.maxThieves;
    assert !(w.thr > 0 && w.cor > 0 && left1 == 1);
    PlacedAt(cfg, m, w.soc, w.thr, w.cor);
    assert SearchPre(cfg, l1.m, i, w);
    var r := Searches(cfg, l1.m, i, w, left1, directed);
    SearchesLinks(cfg, l1.m, i, w, left1, directed);
    ComposeWorkerPost(cfg, m, l1, r, i, left1, directed);
    assert LinkWorker(cfg, m, i, directed) == r.0;
  }

  /** The cross-socket link followed by the searches: their thieves
      together stay within the bound. */
  lemma ComposeWorkerPost(cfg: Config, m: map<nat, WorkerT>, l1: Linked, r: (map<nat, WorkerT>, nat), i: nat, left1: nat, directed: bool)
    requires i in m && i != UNDEF && ThievesOf(m, i) == {}
    requires SearchPost(cfg, m, i, l1, directed) && (l1.ok ==> CrossLinked(cfg, l1.m, i))
    requires left1 == (if l1.ok then 1 else cfg.maxThieves)
    requires i in l1.m && LoopPost(cfg, l1.m, i, left1, r, directed)
    ensures WorkerPost(cfg, m, i, r.0, directed)
  {
    NewLinksCompose(cfg, m, l1.m, r.0, i, directed);
    if l1.ok {
      var tc := GetCpuId(cfg, m[i].soc + 1, 0, 0);
      assert l1.m[tc].victim == i;
      assert CrossLinked(cfg, r.0, i);
    }
  }

  /** One pass of `link_thieves` gives worker i at most `max_thieves`
      thieves, or at most 2 when its cross-socket link succeeded, and only
      links workers without a victim; with the corrected core search every
      thief was built after i. */
  lemma LinkWorkerBounded(cfg: Config, m: map<nat, WorkerT>, i: nat, directed: bool)
    requires Placed(cfg, m) && i in m && i != UNDEF && ThievesOf(m, i) == {}
    ensures var r := LinkWorker(cfg, m, i, directed);
      Placed(cfg, r) && GrowsFor(m, r, i) && NewLinks(cfg, m, r, i, directed) && FanInOk(cfg, r, i)
  {
    if m[i].thr > 0 && m[i].cor > 0 && cfg.maxThieves == 1 {
      NeighbourStep(cfg, m, i, directed);
    } else {
      SearchStep(cfg, m, i, directed);
    }
  }

  /** Every assigned victim is another worker of the map and, when
      `ordered`, one that `build_map` placed before its thief. */
  ghost predicate VictimsOk(cfg: Config, m: map<nat, WorkerT>, ordered: bool)
  {
    forall k :: k in m && m[k].victim != UNDEF ==>
      && m[k].victim in m && m[k].victim != k
      && (ordered ==> BuiltBefore(cfg, m[m[k].victim], m[k]))
  }

  /** Giving thieves to i leaves the thieves of every other worker, and
      their bound, as they were. */
  lemma FanInKept(cfg: Config, m: map<nat, WorkerT>, m': map<nat, WorkerT>, i: nat, v: nat)
    requires GrowsFor(m, m', i) && i != UNDEF && v != i && v != UNDEF
    requires FanInOk(cfg, m, v)
    ensures ThievesOf(m', v) == ThievesOf(m, v)
    ensures FanInOk(cfg, m', v)
  {
    assert ThievesOf(m', v) == ThievesOf(m, v);
  }

  /** Keys of a placed map are cpu ids of the machine. */
  lemma PlacedBelowTotal(cfg: Config, m: map<nat, WorkerT>, k: nat)
    requires Placed(cfg, m) && k in m
    ensures k < Total(cfg)
  {
    GetCpuIdBound(cfg, m[k].soc, m[k].thr, m[k].cor);
  }

  /** What holds before `link_thieves` reaches cpu id `cpu`: victims are
      assigned only to workers already visited, and those have bounded
      fan-out. */
  ghost predicate LinkInv(cfg: Config, m: map<nat, WorkerT>, cpu: nat, directed: bool)
  {
    && Placed(cfg, m)
    && (forall k :: k in m ==> m[k].victim == UNDEF || m[k].victim < cpu)
    && VictimsOk(cfg, m, directed)
    && (forall v :: v in m && v < cpu ==> FanInOk(cfg, m, v))
  }

  /** Thieves given to i keep every victim another, earlier-built worker. */
  lemma VictimsKept(cfg: Config, m: map<nat, WorkerT>, m': map<nat, WorkerT>, i: nat, directed: bool)
    requires i in m && VictimsOk(cfg, m, directed)
    requires GrowsFor(m, m', i) && NewLinks(cfg, m, m', i, directed)
    ensures VictimsOk(cfg, m', directed)
  {
  }

  /** Thieves given to cpu leave the fan-out bound of the workers before
      it intact. */
  lemma FanInAllKept(cfg: Config, m: map<nat, WorkerT>, m': map<nat, WorkerT>, cpu: nat)
    requires GrowsFor(m, m', cpu) && cpu < UNDEF && FanInOk(cfg, m', cpu)
    requires forall v :: v in m && v < cpu ==> FanInOk(cfg, m, v)
    ensures forall v :: v in m' && v < cpu + 1 ==> FanInOk(cfg, m', v)
  {
    forall v | v in m' && v < cpu + 1
      ensures FanInOk(cfg, m', v)
    {
      if v != cpu {
        FanInKept(cfg, m, m', cpu, v);
      }
    }
  }

  /** One iteration of `link_thieves` keeps the invariant one key further. */
  lemma LinkWorkerKeeps(cfg: Config, m: map<nat, WorkerT>, cpu: nat, directed: bool)
    requires LinkInv(cfg, m, cpu, directed) && cpu in m && cpu < Total(cfg) <= UNDEF
    ensures ThievesOf(m, cpu) == {}
    ensures LinkInv(cfg, LinkWorker(cfg, m, cpu, directed), cpu + 1, directed)
    ensures Settled(m, LinkWorker(cfg, m, cpu, directed))
  {
    assert ThievesOf(m, cpu) == {};
    var m' := LinkWorker(cfg, m, cpu, directed);
    LinkWorkerBounded(cfg, m, cpu, directed);
    FanInAllKept(cfg, m, m', cpu);
    VictimsKept(cfg, m, m', cpu, directed);
  }

  lemma SettledTransitive(m1: map<nat, WorkerT>, m2: map<nat, WorkerT>, m3: map<nat, WorkerT>)
    requires Settled(m1, m2) && Settled(m2, m3)
    ensures Settled(m1, m3)
  {
  }

  /** One turn of `link_thieves`' loop at cpu id `cpu`: the worker there,
      if any, gets its thieves. */
  function LinkStep(cfg: Config, m: map<nat, WorkerT>, cpu: nat, directed: bool): map<nat, WorkerT>
  {
    if cpu in m then LinkWorker(cfg, m, cpu, directed) else m
  }

  /** `link_thieves` (topology.hpp:144-173): visits the workers in ascending
      key order, as `std::map` iterates, by running through the cpu ids
      from `cpu` up to `total`, the number of cpu ids of the machine. */
  function LinkAll(cfg: Config, m: map<nat, WorkerT>, cpu: nat, total: nat, directed: bool): map<nat, WorkerT>
    decreases total - cpu
  {
    if cpu >= total then m
    else LinkAll(cfg, LinkStep(cfg, m, cpu, directed), cpu + 1, total, directed)
  }

  /** What `link_thieves` promises from any point on: victims are only
      assigned, never overwritten; every victim is another worker (built
      earlier, with the corrected search); and every worker ends with
      bounded fan-out. */
  ghost predicate LinkPost(cfg: Config, m: map<nat, WorkerT>, r: map<nat, WorkerT>, directed: bool)
  {
    && Settled(m, r) && Placed(cfg, r) && VictimsOk(cfg, r, directed)
    && forall v :: v in r ==> FanInOk(cfg, r, v)
  }

  lemma LinkStepKeeps(cfg: Config, m: map<nat, WorkerT>, cpu: nat, directed: bool)
    requires LinkInv(cfg, m, cpu, directed) && cpu < Total(cfg) <= UNDEF
    ensures LinkInv(cfg, LinkStep(cfg, m, cpu, directed), cpu + 1, directed)
    ensures Settled(m, LinkStep(cfg, m, cpu, directed))
  {
    if cpu in m {
      LinkWorkerKeeps(cfg, m, cpu, directed);
    }
  }

  lemma LinkAllDone(cfg: Config, m: map<nat, WorkerT>, cpu: nat, total: nat, directed: bool)
    requires LinkInv(cfg, m, cpu, directed) && cpu >= total && total == Total(cfg)
    ensures LinkPost(cfg, m, LinkAll(cfg, m, cpu, total, directed), directed)
  {
    forall v | v in m
      ensures v < cpu
    {
      PlacedBelowTotal(cfg, m, v);
    }
  }

  lemma LinkAllStep(cfg: Config, m: map<nat, WorkerT>, cpu: nat, total: nat, directed: bool)
    requires cpu < total && Settled(m, LinkStep(cfg, m, cpu, directed))
    requires var m' := LinkStep(cfg, m, cpu, directed);
      LinkPost(cfg, m', LinkAll(cfg, m', cpu + 1, total, directed), directed)
    ensures LinkPost(cfg, m, LinkAll(cfg, m, cpu, total, directed), directed)
  {
    var m' := LinkStep(cfg, m, cpu, directed);
    SettledTransitive(m, m', LinkAll(cfg, m', cpu + 1, total, directed));
  }

  lemma {:induction false} LinkAllKeeps(cfg: Config, m: map<nat, WorkerT>, cpu: nat, total: nat, directed: bool)
    requires LinkInv(cfg, m, cpu, directed) && total == Total(cfg) <= UNDEF
    ensures LinkPost(cfg, m, LinkAll(cfg, m, cpu, total, directed), directed)
    decreases total - cpu
  {
    if cpu >= total {
      LinkAllDone(cfg, m, cpu, total, directed);
    } else {
      LinkStepKeeps(cfg, m, cpu, directed);
      LinkAllKeeps(cfg, LinkStep(cfg, m, cpu, directed), cpu + 1, total, directed);
      LinkAllStep(cfg, m, cpu, total, directed);
    }
  }

  /** The worker reached from x by following k victim links, if any. */
  function Follow(m: map<nat, WorkerT>, x: nat, k: nat): Option<nat>
    decreases k
  {
    if k == 0 then Some(x)
    else if x in m && m[x].victim != UNDEF && m[x].victim in m then Follow(m, m[x].victim, k - 1)
    else None
  }

  lemma BuiltBeforeTransitive(cfg: Config, a: WorkerT, b: WorkerT, c: WorkerT)
    requires BuiltBefore(cfg, a, b) && BuiltBefore(cfg, b, c)
    ensures BuiltBefore(cfg, a, c)
  {
  }

  /** With ordered victims, every worker reached by following one or more
      victim links was placed strictly earlier. */
  lemma {:induction false} FollowGoesEarlier(cfg: Config, m: map<nat, WorkerT>, x: nat, k: nat)
    requires VictimsOk(cfg, m, true) && x in m && k >= 1 && Follow(m, x, k).Some?
    ensures Follow(m, x, k).value in m
    ensures BuiltBefore(cfg, m[Follow(m, x, k).value], m[x])
    decreases k
  {
    var v := m[x].victim;
    if k > 1 {
      FollowGoesEarlier(cfg, m, v, k - 1);
      BuiltBeforeTransitive(cfg, m[Follow(m, x, k).value], m[v], m[x]);
    }
  }

  /** With ordered victims, following victim links never comes back. */
  lemma NoVictimCycle(cfg: Config, m: map<nat, WorkerT>, x: nat, k: nat)
    requires VictimsOk(cfg, m, true) && x in m && k >= 1
    ensures Follow(m, x, k) != Some(x)
  {
    if Follow(m, x, k).Some? {
      FollowGoesEarlier(cfg, m, x, k);
    }
  }

  /** `m_nworkers` after the constructor's default (topology.hpp:93-94). */
  function NWorkers(cfg: Config): nat
  {
    if cfg.nworkers == 0 then Total(cfg) else cfg.nworkers
  }

  /** The constructor (topology.hpp:77-107): `build_map` then
      `link_thieves`; `directed` selects the corrected core search. */
  function Build(cfg: Config, directed: bool): Built
  {
    var b := BuildMap(cfg, NWorkers(cfg));
    Built(LinkAll(cfg, b.workers, 0, Total(cfg), directed), b.nworkers)
  }

  /** Linking keeps the cpu ids `build_map` placed. */
  lemma BuildKeys(cfg: Config, directed: bool)
    requires Total(cfg) <= UNDEF
    ensures Build(cfg, directed).workers.Keys == BuildMap(cfg, NWorkers(cfg)).workers.Keys
    ensures Build(cfg, directed).nworkers == BuildMap(cfg, NWorkers(cfg)).nworkers
  {
    var b := BuildMap(cfg, NWorkers(cfg));
    BuildMapProperties(cfg, NWorkers(cfg));
    LinkAllKeeps(cfg, b.workers, 0, Total(cfg), directed);
  }

  /** The constructor's topology is as complete as `build_map`'s map. */
  lemma BuildComplete(cfg: Config, directed: bool)
    requires Total(cfg) <= UNDEF
    ensures var t := Build(cfg, directed);
      && t.workers.Keys == BuildMap(cfg, NWorkers(cfg)).workers.Keys
      && (NoEarlyBreak(cfg) && t.nworkers < NWorkers(cfg) ==> PlaceableIds(cfg) <= t.workers.Keys)
      && (NoEarlyBreak(cfg) && |PlaceableIds(cfg)| >= NWorkers(cfg) ==> t.nworkers == NWorkers(cfg))
  {
    BuildKeys(cfg, directed);
    if NoEarlyBreak(cfg) {
      BuildMapComplete(cfg, NWorkers(cfg));
    }
  }

  /** The finished topology: consecutive distinct ids, one entry per
      worker, every victim another worker, bounded fan-out. */
  lemma BuildProperties(cfg: Config, directed: bool)
    requires Total(cfg) <= UNDEF
    ensures var t := Build(cfg, directed);
      && t.nworkers <= NWorkers(cfg) && |t.workers| == t.nworkers
      && (forall k :: k in t.workers ==> t.workers[k].id < t.nworkers && k < Total(cfg))
      && IdsDistinct(t.workers)
      && VictimsOk(cfg, t.workers, directed)
      && (forall v :: v in t.workers ==> FanInOk(cfg, t.workers, v))
  {
    var b := BuildMap(cfg, NWorkers(cfg));
    BuildMapProperties(cfg, NWorkers(cfg));
    LinkAllKeeps(cfg, b.workers, 0, Total(cfg), directed);
    var m := LinkAll(cfg, b.workers, 0, Total(cfg), directed);
    assert m.Keys == b.workers.Keys;
    assert |m| == |b.workers|;
    forall k | k in m
      ensures k < Total(cfg)
    {
      PlacedBelowTotal(cfg, m, k);
    }
  }

  /** The victim relation of the corrected topology is a forest: no chain
      of victim links returns to where it started. */
  lemma TopologyIsForest(cfg: Config)
    requires Total(cfg) <= UNDEF
    ensures forall x, k :: x in Build(cfg, true).workers && k >= 1 ==> Follow(Build(cfg, true).workers, x, k) != Some(x)
  {
    BuildProperties(cfg, true);
    var m := Build(cfg, true).workers;
    forall x, k | x in m && k >= 1
      ensures Follow(m, x, k) != Some(x)
    {
      NoVictimCycle(cfg, m, x, k);
    }
  }
}

=== FILE: topology_map.dfy ===
/** The worker map of `topology` (include/topology.hpp): hardware
    coordinates (socket, hardware thread, core), the cpu id they flatten to,
    and `build_map`, which hands out consecutive worker ids.  The machine
    shape is a parameter instead of `hardware_concurrency()`. */
module TopologyMap {
  import opened Common

  /** Machine shape and the constructor's arguments (topology.hpp:19-23). */
  datatype Config = Config(
    nsockets: nat, nthreads: nat, ncores: nat,
    nworkers: nat, maxThieves: nat, thrThreshold: nat)

  /** `worker_t` (topology.hpp:37-46). */
  datatype WorkerT = WorkerT(id: nat, soc: nat, thr: nat, cor: nat, victim: nat, flags: nat)

  /** `UNDEF`, the largest `size_t` (topology.hpp:63): no victim yet. */
  const UNDEF: nat := 0xFFFF_FFFF_FFFF_FFFF

  /** The result of `build_map`: the map keyed by cpu id and `m_nworkers`. */
  datatype Built = Built(workers: map<nat, WorkerT>, nworkers: nat)

  /** Number of cpus of the machine: threads x sockets x cores. */
  function Total(cfg: Config): nat
  {
    Mul(cfg.nthreads * cfg.nsockets, cfg.ncores)
  }

  lemma TotalIsProduct(cfg: Config)
    ensures Total(cfg) == cfg.nthreads * cfg.nsockets * cfg.ncores
  {
    MulIsProduct(cfg.nthreads * cfg.nsockets, cfg.ncores);
  }

  predicate InRange(cfg: Config, soc: nat, thr: nat, cor: nat)
  {
    soc < cfg.nsockets && thr < cfg.nthreads && cor < cfg.ncores
  }

  /** `get_cpu_id` (topology.hpp:228-235), in unbounded arithmetic. */
  function GetCpuId(cfg: Config, soc: nat, thr: nat, cor: nat): nat
  {
    Mul(thr * cfg.nsockets + soc, cfg.ncores) + cor
  }

  lemma GetCpuIdIsSum(cfg: Config, soc: nat, thr: nat, cor: nat)
    ensures GetCpuId(cfg, soc, thr, cor) == thr * cfg.nsockets * cfg.ncores + soc * cfg.ncores + cor
  {
    MulIsProduct(thr * cfg.nsockets + soc, cfg.ncores);
    assert (thr * cfg.nsockets + soc) * cfg.ncores == thr * cfg.nsockets * cfg.ncores + soc * cfg.ncores;
  }

  /** The coordinates a cpu id stands for: the inverse of `GetCpuId`. */
  datatype Coord = Coord(soc: nat, thr: nat, cor: nat)

  function Decode(cfg: Config, cpu: nat): Coord
    requires cfg.nsockets > 0 && cfg.ncores > 0
  {
    var row := cpu / cfg.ncores;
    Coord(row % cfg.nsockets, row / cfg.nsockets, cpu % cfg.ncores)
  }

  /** q * n + r splits back into q and r when 0 <= r < n. */
  lemma DivModOf(q: nat, r: nat, n: nat)
    requires r < n
    ensures (q * n + r) / n == q && (q * n + r) % n == r
  {
    var x := q * n + r;
    var q', r' := x / n, x % n;
    assert x == n * q' + r';
    var d := q - q';
    assert n * d == r' - r by {
      assert n * d == n * q - n * q';
    }
    MulBetween(n, d);
    MulBetween(n, -d);
    assert n * -d == -(n * d);
  }

  lemma MulMonotone(a: nat, b: nat, n: nat)
    requires a <= b
    ensures a * n <= b * n
  {
    assert b * n - a * n == (b - a) * n;
  }

  /** Round trip: every in-range coordinate is recovered from its cpu id. */
  lemma DecodeGetCpuId(cfg: Config, soc: nat, thr: nat, cor: nat)
    requires InRange(cfg, soc, thr, cor)
    ensures Decode(cfg, GetCpuId(cfg, soc, thr, cor)) == Coord(soc, thr, cor)
  {
    var ns, nc := cfg.nsockets, cfg.ncores;
    GetCpuIdIsSum(cfg, soc, thr, cor);
    var cpu := GetCpuId(cfg, soc, thr, cor);
    assert cpu == (thr * ns + soc) * nc + cor by {
      assert (thr * ns + soc) * nc == thr * ns * nc + soc * nc;
    }
    DivModOf(thr * ns + soc, cor, nc);
    DivModOf(thr, soc, ns);
  }

  /** Distinct in-range coordinates get distinct cpu ids. */
  lemma GetCpuIdInjective(cfg: Config, s1: nat, t1: nat, c1: nat, s2: nat, t2: nat, c2: nat)
    requires InRange(cfg, s1, t1, c1) && InRange(cfg, s2, t2, c2)
    requires GetCpuId(cfg, s1, t1, c1) == GetCpuId(cfg, s2, t2, c2)
    ensures s1 == s2 && t1 == t2 && c1 == c2
  {
    DecodeGetCpuId(cfg, s1, t1, c1);
    DecodeGetCpuId(cfg, s2, t2, c2);
  }

  /** Every in-range cpu id is below threads x sockets x cores. */
  lemma GetCpuIdBound(cfg: Config, soc: nat, thr: nat, cor: nat)
    requires InRange(cfg, soc, thr, cor)
    ensures GetCpuId(cfg, soc, thr, cor) < Total(cfg)
  {
    var ns, nc, nt := cfg.nsockets, cfg.ncores, cfg.nthreads;
    var row := thr * ns + soc;
    assert row + 1 <= nt * ns by {
      MulMonotone(thr + 1, nt, ns);
    }
    MulIsProduct(row, nc);
    MulIsProduct(nt * ns, nc);
    MulMonotone(row + 1, nt * ns, nc);
    assert (row + 1) * nc == row * nc + nc;
  }

  /** The position of a core in `build_map`'s sweep of its row: ascending on
      hardware thread 0, descending on later threads (topology.hpp:124). */
  function Sweep(cfg: Config, thr: nat, cor: nat): int
  {
    if thr > 0 then cfg.ncores - 1 - cor else cor
  }

  /** `build_map` visits coordinates (soc, thr, cor) before position
      (t, s, cc) of its loops. */
  predicate CoordBefore(cfg: Config, soc: nat, thr: nat, cor: nat, t: nat, s: nat, cc: int)
  {
    || thr < t
    || (thr == t && (soc < s || (soc == s && Sweep(cfg, thr, cor) < cc)))
  }

  /** w is visited by `build_map` before position (t, s, cc) of its loops. */
  predicate VisitedBefore(cfg: Config, w: WorkerT, t: nat, s: nat, cc: int)
  {
    CoordBefore(cfg, w.soc, w.thr, w.cor, t, s, cc)
  }

  /** `build_map` visits a before b. */
  predicate BuiltBefore(cfg: Config, a: WorkerT, b: WorkerT)
  {
    VisitedBefore(cfg, a, b.thr, b.soc, Sweep(cfg, b.thr, b.cor))
  }

  /** Hardware thread t > 0 leaves core 0 of every socket but the last to
      the first hardware thread (topology.hpp:126-127). */
  predicate Skipped(cfg: Config, soc: nat, thr: nat, cor: nat)
  {
    thr > 0 && cor == 0 && soc + 1 < cfg.nsockets
  }

  /** An entry as `build_map` creates it (topology.hpp:129-130): keyed by the
      cpu id of its in-range, not skipped coordinates, with no victim. */
  predicate Fresh(cfg: Config, key: nat, w: WorkerT)
  {
    && InRange(cfg, w.soc, w.thr, w.cor)
    && !Skipped(cfg, w.soc, w.thr, w.cor)
    && key == GetCpuId(cfg, w.soc, w.thr, w.cor)
    && w.victim == UNDEF && w.flags == 0
  }

  /** Worker ids follow the order in which `build_map` visits coordinates. */
  ghost predicate IdsInVisitOrder(cfg: Config, m: map<nat, WorkerT>)
  {
    forall a, b :: a in m && b in m ==> (m[a].id < m[b].id <==> BuiltBefore(cfg, m[a], m[b]))
  }

  ghost predicate IdsDistinct(m: map<nat, WorkerT>)
  {
    forall a, b :: a in m && b in m && a != b ==> m[a].id != m[b].id
  }

  /** What holds of the map at position (t, s, cc) of `build_map`'s loops
      with `id` the next id: `id` entries, each fresh, each visited
      before the position, with ids in visit order. */
  ghost predicate WalkInv(cfg: Config, t: nat, s: nat, cc: int, id: nat, m: map<nat, WorkerT>)
  {
    && |m| == id
    && (forall k :: k in m ==> Fresh(cfg, k, m[k]) && m[k].id < id)
    && (forall k :: k in m ==> VisitedBefore(cfg, m[k], t, s, cc))
    && IdsInVisitOrder(cfg, m) && IdsDistinct(m)
  }

  /** Moving the loop position forward keeps the invariant. */
  lemma WalkInvAdvance(cfg: Config, t: nat, s: nat, cc: int, t': nat, s': nat, cc': int, id: nat, m: map<nat, WorkerT>)
    requires WalkInv(cfg, t, s, cc, id, m)
    requires t < t' || (t == t' && (s < s' || (s == s' && cc <= cc')))
    ensures WalkInv(cfg, t', s', cc', id, m)
  {
  }

  /** Placing the next worker at the current position keeps the invariant
      one position further on. */
  lemma WalkInvInsert(cfg: Config, t: nat, s: nat, cc: nat, c: nat, id: nat, m: map<nat, WorkerT>)
    requires WalkInv(cfg, t, s, cc, id, m)
    requires InRange(cfg, s, t, c) && !Skipped(cfg, s, t, c) && Sweep(cfg, t, c) == cc
    ensures GetCpuId(cfg, s, t, c) !in m
    ensures WalkInv(cfg, t, s, cc + 1, id + 1, m[GetCpuId(cfg, s, t, c) := WorkerT(id, s, t, c, UNDEF, 0)])
  {
    var cpu := GetCpuId(cfg, s, t, c);
    var w := WorkerT(id, s, t, c, UNDEF, 0);
    CpuIdFree(cfg, t, s, cc, c, id, m);
    InsertKeeps(cfg, t, s, cc, c, id, m);
    VisitOrderInsert(cfg, m, cpu, w, cc);
  }

  /** The entry placed at a free cpu id is fresh, visited before the next
      position, and has an id no other entry has. */
  lemma InsertKeeps(cfg: Config, t: nat, s: nat, cc: nat, c: nat, id: nat, m: map<nat, WorkerT>)
    requires WalkInv(cfg, t, s, cc, id, m) && GetCpuId(cfg, s, t, c) !in m
    requires InRange(cfg, s, t, c) && !Skipped(cfg, s, t, c) && Sweep(cfg, t, c) == cc
    ensures var m' := m[GetCpuId(cfg, s, t, c) := WorkerT(id, s, t, c, UNDEF, 0)];
      && |m'| == id + 1
      && (forall k :: k in m' ==> Fresh(cfg, k, m'[k]) && m'[k].id < id + 1)
      && (forall k :: k in m' ==> VisitedBefore(cfg, m'[k], t, s, cc + 1))
      && IdsDistinct(m')
  {
    var w := WorkerT(id, s, t, c, UNDEF, 0);
    assert Fresh(cfg, GetCpuId(cfg, s, t, c), w);
  }

  /** The cpu id of the position being visited is not yet taken: every
      entry so far was visited earlier, and cpu ids are injective. */
  lemma CpuIdFree(cfg: Config, t: nat, s: nat, cc: nat, c: nat, id: nat, m: map<nat, WorkerT>)
    requires WalkInv(cfg, t, s, cc, id, m)
    requires InRange(cfg, s, t, c) && Sweep(cfg, t, c) == cc
    ensures GetCpuId(cfg, s, t, c) !in m
  {
    var cpu := GetCpuId(cfg, s, t, c);
    if cpu in m {
      assert Fresh(cfg, cpu, m[cpu]) && VisitedBefore(cfg, m[cpu], t, s, cc);
      GetCpuIdInjective(cfg, m[cpu].soc, m[cpu].thr, m[cpu].cor, s, t, c);
      assert false;
    }
  }

  /** A worker visited after every entry of m, with a larger id than all of
      them, keeps the ids in visit order. */
  lemma VisitOrderInsert(cfg: Config, m: map<nat, WorkerT>, cpu: nat, w: WorkerT, cc: int)
    requires IdsInVisitOrder(cfg, m) && cpu !in m
    requires Sweep(cfg, w.thr, w.cor) == cc
    requires forall k :: k in m ==> m[k].id < w.id && VisitedBefore(cfg, m[k], w.thr, w.soc, cc)
    ensures IdsInVisitOrder(cfg, m[cpu := w])
  {
    var m' := m[cpu := w];
    forall a, b | a in m' && b in m'
      ensures m'[a].id < m'[b].id <==> BuiltBefore(cfg, m'[a], m'[b])
    {
      if a != cpu && b != cpu {
        assert m'[a] == m[a] && m'[b] == m[b];
      } else if a != cpu {
        assert BuiltBefore(cfg, m[a], w);
      } else if b != cpu {
        assert !BuiltBefore(cfg, w, m[b]);
      }
    }
  }

  /** The loops of `build_map` from position (t, s, cc) on, with `left`
      workers still to place and `id` the next id.  Returns the map and
      the final `left`. */
  function Walk(cfg: Config, t: nat, s: nat, cc: nat, left: nat, id: nat, m: map<nat, WorkerT>): (r: (map<nat, WorkerT>, nat))
    ensures r.1 <= left
    decreases cfg.nthreads - t, cfg.nsockets - s, cfg.ncores - cc
  {
    if t >= cfg.nthreads then (m, left)
    else if s >= cfg.nsockets then Walk(cfg, t + 1, 0, 0, left, id, m)
    else if cc >= cfg.ncores then
      if left <= cfg.thrThreshold && t + 1 < cfg.nthreads then Walk(cfg, t + 1, 0, 0, left, id, m)
      else Walk(cfg, t, s + 1, 0, left, id, m)
    else if left == 0 then (m, 0)
    else
      var c: nat := if t > 0 then cfg.ncores - cc - 1 else cc;
      if Skipped(cfg, s, t, c) then Walk(cfg, t, s, cc + 1, left, id, m)
      else Walk(cfg, t, s, cc + 1, left - 1, id + 1, m[GetCpuId(cfg, s, t, c) := WorkerT(id, s, t, c, UNDEF, 0)])
  }

  /** What `build_map`'s loops promise from position (t, s, cc) on: every
      worker placed lowers `left` by one, and the map holds one fresh
      entry per id, with ids in visit order. */
  ghost predicate WalkPost(cfg: Config, left: nat, id: nat, r: (map<nat, WorkerT>, nat))
  {
    && r.1 <= left && |r.0| == id + (left - r.1)
    && (forall k :: k in r.0 ==> Fresh(cfg, k, r.0[k]) && r.0[k].id < |r.0|)
    && IdsInVisitOrder(cfg, r.0) && IdsDistinct(r.0)
  }

  /** Moving to the next hardware thread, socket or core without placing
      a worker carries the promise for the rest of the walk back. */
  lemma WalkPostAdvance(cfg: Config, t: nat, s: nat, cc: nat, t': nat, s': nat, cc': nat, left: nat, id: nat, m: map<nat, WorkerT>)
    requires t < cfg.nthreads
    requires || (s >= cfg.nsockets && (t', s', cc') == (t + 1, 0, 0))
             || (s < cfg.nsockets && cc >= cfg.ncores && left <= cfg.thrThreshold && t + 1 < cfg.nthreads && (t', s', cc') == (t + 1, 0, 0))
             || (s < cfg.nsockets && cc >= cfg.ncores && !(left <= cfg.thrThreshold && t + 1 < cfg.nthreads) && (t', s', cc') == (t, s + 1, 0))
             || (s < cfg.nsockets && cc < cfg.ncores && left > 0 && Skipped(cfg, s, t, if t > 0 then cfg.ncores - cc - 1 else cc) && (t', s', cc') == (t, s, cc + 1))
    requires WalkPost(cfg, left, id, Walk(cfg, t', s', cc', left, id, m))
    ensures WalkPost(cfg, left, id, Walk(cfg, t, s, cc, left, id, m))
  {
    assert Walk(cfg, t, s, cc, left, id, m) == Walk(cfg, t', s', cc', left, id, m);
  }

  /** Placing one worker carries the promise for the rest of the walk
      back to the walk from here. */
  lemma WalkPostPlace(cfg: Config, t: nat, s: nat, cc: nat, c: nat, left: nat, id: nat, m: map<nat, WorkerT>)
    requires t < cfg.nthreads && s < cfg.nsockets && cc < cfg.ncores && left > 0
    requires c == (if t > 0 then cfg.ncores - cc - 1 else cc) && !Skipped(cfg, s, t, c)
    requires WalkPost(cfg, left - 1, id + 1, Walk(cfg, t, s, cc + 1, left - 1, id + 1, m[GetCpuId(cfg, s, t, c) := WorkerT(id, s, t, c, UNDEF, 0)]))
    ensures WalkPost(cfg, left, id, Walk(cfg, t, s, cc, left, id, m))
  {
    var r := Walk(cfg, t, s, cc + 1, left - 1, id + 1, m[GetCpuId(cfg, s, t, c) := WorkerT(id, s, t, c, UNDEF, 0)]);
    assert Walk(cfg, t, s, cc, left, id, m) == r;
  }

  /** The walk's promise holds from every position that satisfies the
      loop invariant. */
  lemma {:induction false} WalkBuilds(cfg: Config, t: nat, s: nat, cc: nat, left: nat, id: nat, m: map<nat, WorkerT>)
    requires WalkInv(cfg, t, s, cc, id, m)
    ensures WalkPost(cfg, left, id, Walk(cfg, t, s, cc, left, id, m))
    decreases cfg.nthreads - t, cfg.nsockets - s, cfg.ncores - cc
  {
    if t >= cfg.nthreads {
    } else if s < cfg.nsockets && cc < cfg.ncores && left == 0 {
    } else if s < cfg.nsockets && cc < cfg.ncores && !Skipped(cfg, s, t, if t > 0 then cfg.ncores - cc - 1 else cc) {
      var c: nat := if t > 0 then cfg.ncores - cc - 1 else cc;
      WalkInvInsert(cfg, t, s, cc, c, id, m);
      WalkBuilds(cfg, t, s, cc + 1, left - 1, id + 1, m[GetCpuId(cfg, s, t, c) := WorkerT(id, s, t, c, UNDEF, 0)]);
      WalkPostPlace(cfg, t, s, cc, c, left, id, m);
    } else {
      var next :=
        if s >= cfg.nsockets || (cc >= cfg.ncores && left <= cfg.thrThreshold && t + 1 < cfg.nthreads) then (t + 1, 0, 0)
        else if cc >= cfg.ncores then (t, s + 1, 0)
        else (t, s, cc + 1);
      WalkInvAdvance(cfg, t, s, cc, next.0, next.1, next.2, id, m);
      WalkBuilds(cfg, next.0, next.1, next.2, left, id, m);
      WalkPostAdvance(cfg, t, s, cc, next.0, next.1, next.2, left, id, m);
    }
  }

  /** `build_map` (topology.hpp:112-142) asked for `requested` workers:
      the loops, then `m_nworkers -= left`. */
  function BuildMap(cfg: Config, requested: nat): Built
  {
    var r := Walk(cfg, 0, 0, 0, requested, 0, map[]);
    Built(r.0, requested - r.1)
  }

  /** `build_map` places at most the requested number of workers, one
      fresh entry per worker at the cpu id of its coordinates, with the
      distinct ids 0 .. nworkers-1 given in visit order. */
  lemma BuildMapProperties(cfg: Config, requested: nat)
    ensures var b := BuildMap(cfg, requested);
      && b.nworkers <= requested && |b.workers| == b.nworkers
      && (forall k :: k in b.workers ==> Fresh(cfg, k, b.workers[k]))
      && (forall k :: k in b.workers ==> b.workers[k].id < b.nworkers && k < Total(cfg))
      && IdsDistinct(b.workers) && IdsInVisitOrder(cfg, b.workers)
  {
    WalkBuilds(cfg, 0, 0, 0, requested, 0, map[]);
    var b := BuildMap(cfg, requested);
    forall k | k in b.workers
      ensures k < Total(cfg)
    {
      GetCpuIdBound(cfg, b.workers[k].soc, b.workers[k].thr, b.workers[k].cor);
    }
  }

  /** Coordinates `build_map` may give a worker: in range and not left to
      the first hardware thread. */
  predicate Placeable(cfg: Config, soc: nat, thr: nat, cor: nat)
  {
    InRange(cfg, soc, thr, cor) && !Skipped(cfg, soc, thr, cor)
  }

  /** The cpu ids of all placeable coordinates. */
  ghost function PlaceableIds(cfg: Config): set<nat>
  {
    set soc: nat, thr: nat, cor: nat | soc < cfg.nsockets && thr < cfg.nthreads && cor < cfg.ncores && !Skipped(cfg, soc, thr, cor)
      :: GetCpuId(cfg, soc, thr, cor)
  }

  /** Every placeable coordinate visited before position (t, s, cc) has a
      worker in m. */
  ghost predicate Covered(cfg: Config, t: nat, s: nat, cc: int, m: map<nat, WorkerT>)
  {
    forall soc: nat, thr: nat, cor: nat :: Placeable(cfg, soc, thr, cor) && CoordBefore(cfg, soc, thr, cor, t, s, cc) ==> GetCpuId(cfg, soc, thr, cor) in m
  }

  /** Every worker of m has all placeable coordinates visited before it
      placed too: the placed coordinates form a prefix of the visit order. */
  ghost predicate PrefixClosed(cfg: Config, m: map<nat, WorkerT>)
  {
    forall k :: k in m ==> Covered(cfg, m[k].thr, m[k].soc, Sweep(cfg, m[k].thr, m[k].cor), m)
  }

  /** What the loops promise without an early break: the placed
      coordinates form a prefix of the visit order, and if workers are left
      over, every placeable coordinate was placed. */
  ghost predicate WalkComplete(cfg: Config, r: (map<nat, WorkerT>, nat))
  {
    && PrefixClosed(cfg, r.0)
    && (r.1 > 0 ==> forall soc: nat, thr: nat, cor: nat :: Placeable(cfg, soc, thr, cor) ==> GetCpuId(cfg, soc, thr, cor) in r.0)
  }

  /** Adding keys keeps a map covered. */
  lemma CoveredGrow(cfg: Config, t: nat, s: nat, cc: int, m: map<nat, WorkerT>, m': map<nat, WorkerT>)
    requires Covered(cfg, t, s, cc, m) && m.Keys <= m'.Keys
    ensures Covered(cfg, t, s, cc, m')
  {
  }

  /** Placing the worker at position (t, s, cc) keeps the map covered one
      core further on, and keeps it prefix closed. */
  lemma CompletePlace(cfg: Config, t: nat, s: nat, cc: nat, c: nat, id: nat, m: map<nat, WorkerT>)
    requires Covered(cfg, t, s, cc, m) && PrefixClosed(cfg, m)
    requires Placeable(cfg, s, t, c) && Sweep(cfg, t, c) == cc
    ensures var m' := m[GetCpuId(cfg, s, t, c) := WorkerT(id, s, t, c, UNDEF, 0)];
      Covered(cfg, t, s, cc + 1, m') && PrefixClosed(cfg, m')
  {
    var cpu := GetCpuId(cfg, s, t, c);
    var m' := m[cpu := WorkerT(id, s, t, c, UNDEF, 0)];
    forall k | k in m'
      ensures Covered(cfg, m'[k].thr, m'[k].soc, Sweep(cfg, m'[k].thr, m'[k].cor), m')
    {
      if k == cpu {
        CoveredGrow(cfg, t, s, cc, m, m');
      } else {
        assert m'[k] == m[k];
        CoveredGrow(cfg, m[k].thr, m[k].soc, Sweep(cfg, m[k].thr, m[k].cor), m, m');
      }
    }
    forall soc: nat, thr: nat, cor: nat | Placeable(cfg, soc, thr, cor) && CoordBefore(cfg, soc, thr, cor, t, s, cc + 1)
      ensures GetCpuId(cfg, soc, thr, cor) in m'
    {
      if !CoordBefore(cfg, soc, thr, cor, t, s, cc) {
        assert (soc, thr, cor) == (s, t, c);
      }
    }
  }

  /** Moving past a row, a socket or a skipped core keeps the map covered. */
  lemma CoveredAdvance(cfg: Config, t: nat, s: nat, cc: nat, t': nat, s': nat, cc': nat, m: map<nat, WorkerT>)
    requires Covered(cfg, t, s, cc, m)
    requires || (s + 1 >= cfg.nsockets && cc >= cfg.ncores && (t', s', cc') == (t + 1, 0, 0))
             || (s >= cfg.nsockets && (t', s', cc') == (t + 1, 0, 0))
             || (s < cfg.nsockets && cc >= cfg.ncores && (t', s', cc') == (t, s + 1, 0))
             || (s < cfg.nsockets && cc < cfg.ncores && Skipped(cfg, s, t, if t > 0 then cfg.ncores - cc - 1 else cc) && (t', s', cc') == (t, s, cc + 1))
    ensures Covered(cfg, t', s', cc', m)
  {
    forall soc: nat, thr: nat, cor: nat | Placeable(cfg, soc, thr, cor) && CoordBefore(cfg, soc, thr, cor, t', s', cc')
      ensures GetCpuId(cfg, soc, thr, cor) in m
    {
      if s < cfg.nsockets && cc < cfg.ncores && !CoordBefore(cfg, soc, thr, cor, t, s, cc) {
        assert false;
      }
    }
  }

  /** Moving on without placing a worker carries the completeness of the
      rest of the walk back. */
  lemma WalkCompleteAdvance(cfg: Config, t: nat, s: nat, cc: nat, t': nat, s': nat, cc': nat, left: nat, id: nat, m: map<nat, WorkerT>)
    requires t < cfg.nthreads
    requires || (s >= cfg.nsockets && (t', s', cc') == (t + 1, 0, 0))
             || (s < cfg.nsockets && cc >= cfg.ncores && left <= cfg.thrThreshold && t + 1 < cfg.nthreads && (t', s', cc') == (t + 1, 0, 0))
             || (s < cfg.nsockets && cc >= cfg.ncores && !(left <= cfg.thrThreshold && t + 1 < cfg.nthreads) && (t', s', cc') == (t, s + 1, 0))
             || (s < cfg.nsockets && cc < cfg.ncores && left > 0 && Skipped(cfg, s, t, if t > 0 then cfg.ncores - cc - 1 else cc) && (t', s', cc') == (t, s, cc + 1))
    requires WalkComplete(cfg, Walk(cfg, t', s', cc', left, id, m))
    ensures WalkComplete(cfg, Walk(cfg, t, s, cc, left, id, m))
  {
    assert Walk(cfg, t, s, cc, left, id, m) == Walk(cfg, t', s', cc', left, id, m);
  }

  /** Placing one worker carries the completeness of the rest of the walk
      back. */
  lemma WalkCompletePlace(cfg: Config, t: nat, s: nat, cc: nat, c: nat, left: nat, id: nat, m: map<nat, WorkerT>)
    requires t < cfg.nthreads && s < cfg.nsockets && cc < cfg.ncores && left > 0
    requires c == (if t > 0 then cfg.ncores - cc - 1 else cc) && !Skipped(cfg, s, t, c)
    requires WalkComplete(cfg, Walk(cfg, t, s, cc + 1, left - 1, id + 1, m[GetCpuId(cfg, s, t, c) := WorkerT(id, s, t, c, UNDEF, 0)]))
    ensures WalkComplete(cfg, Walk(cfg, t, s, cc, left, id, m))
  {
    var r := Walk(cfg, t, s, cc + 1, left - 1, id + 1, m[GetCpuId(cfg, s, t, c) := WorkerT(id, s, t, c, UNDEF, 0)]);
    assert Walk(cfg, t, s, cc, left, id, m) == r;
  }

  /** The walk that stops at once leaves m, which is prefix closed. */
  lemma WalkCompleteStop(cfg: Config, t: nat, s: nat, cc: nat, left: nat, id: nat, m: map<nat, WorkerT>)
    requires PrefixClosed(cfg, m)
    requires left > 0 ==> Covered(cfg, t, s, cc, m)
    requires t >= cfg.nthreads || (s < cfg.nsockets && cc < cfg.ncores && left == 0)
    ensures WalkComplete(cfg, Walk(cfg, t, s, cc, left, id, m))
  {
    assert Walk(cfg, t, s, cc, left, id, m) == (m, left);
    if left > 0 {
      forall soc: nat, thr: nat, cor: nat | Placeable(cfg, soc, thr, cor)
        ensures GetCpuId(cfg, soc, thr, cor) in m
      {
        assert CoordBefore(cfg, soc, thr, cor, t, s, cc);
      }
    }
  }

  /** The break of topology.hpp:136 skips no socket: the threshold is 0,
      so it fires only once no workers are left, or there is one socket. */
  predicate NoEarlyBreak(cfg: Config)
  {
    cfg.thrThreshold == 0 || cfg.nsockets <= 1
  }

  /** Without an early break, the loops from any position keep the placed
      coordinates a prefix of the visit order and place every placeable
      coordinate unless they run out of workers. */
  lemma {:induction false} WalkCompletes(cfg: Config, t: nat, s: nat, cc: nat, left: nat, id: nat, m: map<nat, WorkerT>)
    requires NoEarlyBreak(cfg)
    requires PrefixClosed(cfg, m)
    requires left > 0 ==> Covered(cfg, t, s, cc, m)
    ensures WalkComplete(cfg, Walk(cfg, t, s, cc, left, id, m))
    decreases cfg.nthreads - t, cfg.nsockets - s, cfg.ncores - cc
  {
    if t >= cfg.nthreads || (s < cfg.nsockets && cc < cfg.ncores && left == 0) {
      WalkCompleteStop(cfg, t, s, cc, left, id, m);
    } else if s < cfg.nsockets && cc < cfg.ncores && !Skipped(cfg, s, t, if t > 0 then cfg.ncores - cc - 1 else cc) {
      var c: nat := if t > 0 then cfg.ncores - cc - 1 else cc;
      var m' := m[GetCpuId(cfg, s, t, c) := WorkerT(id, s, t, c, UNDEF, 0)];
      CompletePlace(cfg, t, s, cc, c, id, m);
      WalkCompletes(cfg, t, s, cc + 1, left - 1, id + 1, m');
      WalkCompletePlace(cfg, t, s, cc, c, left, id, m);
    } else {
      var next :=
        if s >= cfg.nsockets || (cc >= cfg.ncores && left <= cfg.thrThreshold && t + 1 < cfg.nthreads) then (t + 1, 0, 0)
        else if cc >= cfg.ncores then (t, s + 1, 0)
        else (t, s, cc + 1);
      if left > 0 {
        CoveredAdvance(cfg, t, s, cc, next.0, next.1, next.2, m);
      }
      WalkCompletes(cfg, next.0, next.1, next.2, left, id, m);
      WalkCompleteAdvance(cfg, t, s, cc, next.0, next.1, next.2, left, id, m);
    }
  }

  /** Without an early break, `build_map` fills a prefix of the visit
      order: every placeable coordinate visited before a placed worker is
      placed too.  It places fewer workers than requested only when every
      placeable coordinate has one, so it places exactly the requested
      number whenever the machine has that many placeable coordinates. */
  lemma BuildMapComplete(cfg: Config, requested: nat)
    requires NoEarlyBreak(cfg)
    ensures var b := BuildMap(cfg, requested);
      && PrefixClosed(cfg, b.workers)
      && (b.nworkers < requested ==> PlaceableIds(cfg) <= b.workers.Keys)
      && (|PlaceableIds(cfg)| >= requested ==> b.nworkers == requested)
  {
    var b := BuildMap(cfg, requested);
    WalkCompletes(cfg, 0, 0, 0, requested, 0, map[]);
    WalkBuilds(cfg, 0, 0, 0, requested, 0, map[]);
    if b.nworkers < requested {
      assert PlaceableIds(cfg) <= b.workers.Keys;
      SubsetCard(PlaceableIds(cfg), b.workers.Keys);
    }
  }
}

=== FILE: worker_chain.dfy ===
/** The deque chains of `worker` (include/worker.hpp): each worker owns a
    doubly linked chain of task deques, one per depth of the task graph,
    and pairs it depth by depth with the chain of the worker it steals
    from.  Deques live in one arena, a sequence of nodes; a pointer is an
    index into it and `None` is the null pointer.  A node keeps only what
    the worker's bookkeeping reads and writes: `prev`, `next`, `victim`
    and whether `set_null(false)` marked it. */
module WorkerChain {
  import opened Common

  /** A `task_deque` as the worker sees it. */
  datatype Node = Node(prev: Option<nat>, next: Option<nat>, victim: Option<nat>, marked: bool)

  type Heap = seq<Node>

  /** A freshly constructed `task_deque`: no neighbours, no victim. */
  const Blank := Node(None, None, None, false)

  /** `worker`'s fields (worker.hpp:55-72): `m_victim` is the victim
      worker's id; the others point into the arena. */
  datatype Worker = Worker(id: nat, head: nat, victim: Option<nat>, victimHead: Option<nat>, victimTail: Option<nat>)

  /** The indices lo, lo + 1, ..., lo + n - 1. */
  function Range(lo: nat, n: nat): (r: seq<nat>)
    ensures |r| == n && forall k :: 0 <= k < n ==> r[k] == lo + k
  {
    seq(n, k => lo + k)
  }

  function Last(cs: seq<nat>): nat
    requires |cs| > 0
  {
    cs[|cs| - 1]
  }

  /** cs is a well-formed chain of h from its head to its tail: distinct
      nodes (so no more of them than the arena holds), the head has no
      `prev`, the tail no `next`, and `d.next.prev == d` all along. */
  ghost predicate Chain(h: Heap, cs: seq<nat>)
  {
    && 0 < |cs| <= |h|
    && (forall k :: 0 <= k < |cs| ==> cs[k] < |h|)
    && (forall i, j :: 0 <= i < j < |cs| ==> cs[i] != cs[j])
    && h[cs[0]].prev.None? && h[Last(cs)].next.None?
    && forall k :: 0 <= k < |cs| - 1 ==> h[cs[k]].next == Some(cs[k + 1]) && h[cs[k + 1]].prev == Some(cs[k])
  }

  /** h' differs from h at most in `victim` fields. */
  ghost predicate SameShape(h: Heap, h': Heap)
  {
    |h'| == |h| && forall k :: 0 <= k < |h| ==> h'[k] == h[k].(victim := h'[k].victim)
  }

  lemma ChainSameShape(h: Heap, h': Heap, cs: seq<nat>)
    requires Chain(h, cs) && SameShape(h, h')
    ensures Chain(h', cs)
  {
    assert h'[cs[0]].prev == h[cs[0]].prev;
    assert h'[Last(cs)].next == h[Last(cs)].next;
    forall k | 0 <= k < |cs| - 1
      ensures h'[cs[k]].next == Some(cs[k + 1]) && h'[cs[k + 1]].prev == Some(cs[k])
    {
      assert h'[cs[k]].next == h[cs[k]].next;
      assert h'[cs[k + 1]].prev == h[cs[k + 1]].prev;
    }
  }

  /** The constructor's loop (worker.hpp:99-108) from deque d on: `count`
      times, allocate a blank deque n, set `n.prev = d` and `d.next = n`,
      and continue from n. */
  function AppendChain(h: Heap, d: nat, count: nat): (r: Heap)
    requires d < |h|
    ensures |r| == |h| + count
    decreases count
  {
    if count == 0 then h
    else
      var n := |h|;
      AppendChain(h[d := h[d].(next := Some(n))] + [Blank.(prev := Some(d))], n, count - 1)
  }

  /** What appending `count` deques to the tail of the chain cs promises:
      the chain is extended by the new deques, no existing deque changes
      except the old tail's `next`, and the new deques are unmarked and
      without victims. */
  ghost predicate Appended(h: Heap, cs: seq<nat>, count: nat, r: Heap)
    requires 0 < |cs| && Last(cs) < |h|
  {
    && |r| == |h| + count
    && Chain(r, cs + Range(|h|, count))
    && (forall k :: 0 <= k < |h| && k != Last(cs) ==> r[k] == h[k])
    && r[Last(cs)] == h[Last(cs)].(next := if count == 0 then None else Some(|h|))
    && forall k :: |h| <= k < |r| ==> r[k].victim.None? && !r[k].marked
  }

  /** One turn of the constructor's loop keeps cs + [n] a chain. */
  lemma AppendOne(h: Heap, cs: seq<nat>)
    requires Chain(h, cs)
    ensures Chain(h[Last(cs) := h[Last(cs)].(next := Some(|h|))] + [Blank.(prev := Some(Last(cs)))], cs + [|h|])
  {
    var d, n := Last(cs), |h|;
    var h1 := h[d := h[d].(next := Some(n))] + [Blank.(prev := Some(d))];
    var cs1 := cs + [n];
    forall k | 0 <= k < |cs1| - 1
      ensures h1[cs1[k]].next == Some(cs1[k + 1]) && h1[cs1[k + 1]].prev == Some(cs1[k])
    {
      if k < |cs| - 1 {
        assert cs[k] != d;
      }
    }
  }

  /** The promise for the rest of the loop, from the new deque on, gives
      the promise from the old tail. */
  lemma AppendedStep(h: Heap, cs: seq<nat>, count: nat, r: Heap)
    requires Chain(h, cs) && count > 0
    requires var h1 := h[Last(cs) := h[Last(cs)].(next := Some(|h|))] + [Blank.(prev := Some(Last(cs)))];
      Appended(h1, cs + [|h|], count - 1, r)
    ensures Appended(h, cs, count, r)
  {
    var d, n := Last(cs), |h|;
    assert (cs + [n]) + Range(n + 1, count - 1) == cs + Range(n, count);
  }

  /** Appending to the tail of a chain keeps the promise of `Appended`. */
  lemma {:induction false} AppendChainExtends(h: Heap, cs: seq<nat>, count: nat)
    requires Chain(h, cs)
    ensures Appended(h, cs, count, AppendChain(h, Last(cs), count))
    decreases count
  {
    var d := Last(cs);
    if count == 0 {
      assert cs + Range(|h|, 0) == cs;
    } else {
      var h1 := h[d := h[d].(next := Some(|h|))] + [Blank.(prev := Some(d))];
      AppendOne(h, cs);
      AppendChainExtends(h1, cs + [|h|], count - 1);
      AppendedStep(h, cs, count, AppendChain(h, d, count));
    }
  }

  /** The constructor (worker.hpp:75-109): a marked head deque followed by
      `taskgraph_height` blank ones, no victim yet. */
  function NewWorker(h: Heap, id: nat, height: nat): (Heap, Worker)
  {
    var d := |h|;
    (AppendChain(h + [Blank.(marked := true)], d, height), Worker(id, d, None, None, None))
  }

  /** The constructor leaves the arena's old deques alone and builds a
      chain of exactly `taskgraph_height + 1` new deques, linked both ways,
      without victims, of which only the head is marked. */
  lemma NewWorkerChain(h: Heap, id: nat, height: nat)
    ensures var (h', w) := NewWorker(h, id, height);
      && |h'| == |h| + height + 1 && h'[..|h|] == h
      && w.head == |h| && w.id == id && w.victim.None? && w.victimHead.None? && w.victimTail.None?
      && Chain(h', Range(|h|, height + 1))
      && forall k :: |h| <= k < |h'| ==> h'[k].victim.None? && (h'[k].marked <==> k == |h|)
  {
    var d := |h|;
    var h1 := h + [Blank.(marked := true)];
    assert Chain(h1, [d]);
    AppendChainExtends(h1, [d], height);
    assert [d] + Range(d + 1, height) == Range(d, height + 1);
    var h' := AppendChain(h1, d, height);
    assert h'[..|h|] == h by {
      forall k | 0 <= k < |h|
        ensures h'[k] == h[k]
      {
        assert h1[k] == h[k];
      }
    }
  }

  /** The loop of `set_victim` (worker.hpp:126-131): while both pointers
      are set, point a's deque at p's, then step both.  Returns the arena
      and the final p, which becomes `m_victim_tail`.  `fuel` bounds the
      walk; a dangling pointer ends it. */
  function PairLoop(h: Heap, a: Option<nat>, p: Option<nat>, fuel: nat): (r: (Heap, Option<nat>))
    ensures |r.0| == |h|
    decreases fuel
  {
    if a.None? || p.None? || fuel == 0 || a.value >= |h| || p.value >= |h| then (h, p)
    else
      var h' := h[a.value := h[a.value].(victim := p)];
      PairLoop(h', h'[a.value].next, h'[p.value].next, fuel - 1)
  }

  /** `set_victim` (worker.hpp:117-134). */
  function SetVictim(h: Heap, w: Worker, v: Worker): (Heap, Worker)
  {
    var r := PairLoop(h, Some(w.head), Some(v.head), |h|);
    (r.0, w.(victim := Some(v.id), victimHead := Some(v.head), victimTail := r.1))
  }

  /** What the pairing loop promises from depth i on: own deque j points
      at the victim's deque j for every j from i below both lengths,
      nothing else changes, and the final pointer is the first unpaired
      victim deque, if any. */
  ghost predicate PairPost(h: Heap, hs: seq<nat>, ps: seq<nat>, i: nat, r: (Heap, Option<nat>))
    requires forall k :: 0 <= k < |hs| ==> hs[k] < |h|
  {
    && SameShape(h, r.0)
    && (forall j :: i <= j < |hs| && j < |ps| ==> r.0[hs[j]].victim == Some(ps[j]))
    && (forall k :: 0 <= k < |h| && (forall j :: i <= j < |hs| && j < |ps| ==> hs[j] != k) ==> r.0[k] == h[k])
    && r.1 == if |hs| < |ps| then Some(ps[|hs|]) else None
  }

  function At(cs: seq<nat>, i: nat): Option<nat>
  {
    if i < |cs| then Some(cs[i]) else None
  }

  /** One turn of the pairing loop: the promise from depth i + 1 on, for
      the arena with deque i paired, gives the promise from depth i on. */
  lemma PairStep(h: Heap, hs: seq<nat>, ps: seq<nat>, i: nat, r: (Heap, Option<nat>))
    requires Chain(h, hs) && Chain(h, ps) && i < |hs| && i < |ps|
    requires PairPost(h[hs[i] := h[hs[i]].(victim := Some(ps[i]))], hs, ps, i + 1, r)
    ensures PairPost(h, hs, ps, i, r)
  {
    var a := hs[i];
    assert r.0[a] == h[a].(victim := Some(ps[i])) by {
      forall j | i + 1 <= j < |hs| && j < |ps|
        ensures hs[j] != a
      {
      }
    }
  }

  lemma {:induction false} PairLoopPairs(h: Heap, hs: seq<nat>, ps: seq<nat>, i: nat, fuel: nat)
    requires Chain(h, hs) && Chain(h, ps)
    requires i <= |hs| && i <= |ps| && fuel + i >= |hs|
    ensures PairPost(h, hs, ps, i, PairLoop(h, At(hs, i), At(ps, i), fuel))
    decreases fuel
  {
    if i < |hs| && i < |ps| {
      var h' := h[hs[i] := h[hs[i]].(victim := Some(ps[i]))];
      PairTurn(h, hs, ps, i, fuel);
      PairLoopPairs(h', hs, ps, i + 1, fuel - 1);
      PairStep(h, hs, ps, i, PairLoop(h', At(hs, i + 1), At(ps, i + 1), fuel - 1));
    } else {
      PairDone(h, hs, ps, i, fuel);
    }
  }

  /** Once either chain is exhausted the loop stops and changes nothing. */
  lemma PairDone(h: Heap, hs: seq<nat>, ps: seq<nat>, i: nat, fuel: nat)
    requires Chain(h, hs) && Chain(h, ps)
    requires i <= |hs| && i <= |ps| && (i == |hs| || i == |ps|)
    ensures PairPost(h, hs, ps, i, PairLoop(h, At(hs, i), At(ps, i), fuel))
  {
  }

  /** One turn of the pairing loop writes deque i's victim, keeps both
      chains and moves both pointers to depth i + 1. */
  lemma PairTurn(h: Heap, hs: seq<nat>, ps: seq<nat>, i: nat, fuel: nat)
    requires Chain(h, hs) && Chain(h, ps)
    requires i < |hs| && i < |ps| && fuel > 0
    ensures var h' := h[hs[i] := h[hs[i]].(victim := Some(ps[i]))];
      && Chain(h', hs) && Chain(h', ps)
      && PairLoop(h, At(hs, i), At(ps, i), fuel) == PairLoop(h', At(hs, i + 1), At(ps, i + 1), fuel - 1)
  {
    var a := hs[i];
    var p := ps[i];
    var h' := h[a := h[a].(victim := Some(p))];
    assert SameShape(h, h');
    ChainSameShape(h, h', hs);
    ChainSameShape(h, h', ps);
    assert h'[a].next == At(hs, i + 1);
    assert h'[p].next == At(ps, i + 1);
  }

  /** `set_victim` pairs the worker's chain with the victim's depth by
      depth up to the shorter length, changes no other deque, and leaves
      `m_victim_tail` at the victim's first unpaired deque, or null. */
  lemma SetVictimPairs(h: Heap, w: Worker, v: Worker, hs: seq<nat>, ps: seq<nat>)
    requires Chain(h, hs) && Chain(h, ps) && hs[0] == w.head && ps[0] == v.head
    ensures var (h', w') := SetVictim(h, w, v);
      && PairPost(h, hs, ps, 0, (h', w'.victimTail))
      && w'.victim == Some(v.id) && w'.victimHead == Some(v.head) && w'.head == w.head
  {
    PairLoopPairs(h, hs, ps, 0, |h|);
  }

  /** `grow_tail` as written (worker.hpp:160-182): when `tail` has no
      `next`, append a blank deque; then, when `m_victim_tail` and its
      `next` exist, point the new deque at that `next` and move
      `m_victim_tail` to it. */
  function GrowTail(h: Heap, w: Worker, tail: nat): (r: (Heap, Worker))
    requires tail < |h|
    ensures h[tail].next.Some? ==> r == (h, w)
    ensures h[tail].next.None? ==>
      && |r.0| == |h| + 1
      && r.0[tail] == h[tail].(next := Some(|h|))
      && r.0[|h|].prev == Some(tail) && r.0[|h|].next.None? && !r.0[|h|].marked
      && (forall k :: 0 <= k < |h| && k != tail ==> r.0[k] == h[k])
      && var v := if w.victimTail.Some? && w.victimTail.value < |r.0| then r.0[w.victimTail.value].next else None;
         r.0[|h|].victim == v && r.1 == (if v.Some? then w.(victimTail := v) else w)
  {
    if h[tail].next.Some? then (h, w)
    else
      var d := |h|;
      var h1 := AppendChain(h, tail, 1);
      if w.victimTail.None? || w.victimTail.value >= |h1| then (h1, w)
      else
        var v := h1[w.victimTail.value].next;
        if v.None? then (h1, w)
        else (h1[d := h1[d].(victim := v)], w.(victimTail := v))
  }

  /** `grow_tail` corrected: the new deque, one deeper than `tail`, is
      paired with `m_victim_tail` itself, the victim's deque of the same
      depth, and `m_victim_tail` moves on to that deque's `next`. */
  function GrowTailFixed(h: Heap, w: Worker, tail: nat): (r: (Heap, Worker))
    requires tail < |h|
    ensures |h| <= |r.0| <= |h| + 1
    ensures r.0[tail].next == Some(if h[tail].next.Some? then h[tail].next.value else |h|)
    ensures r.0[tail].victim == h[tail].victim
  {
    if h[tail].next.Some? then (h, w)
    else
      var d := |h|;
      var h1 := AppendChain(h, tail, 1);
      if w.victimTail.None? || w.victimTail.value >= |h1| then (h1, w)
      else
        var v := w.victimTail.value;
        (h1[d := h1[d].(victim := Some(v))], w.(victimTail := h1[v].next))
  }

  /** The pairing that `set_victim` sets up and `grow_tail` should keep:
      the first n deques of the chain hs point at the victim chain ps depth
      by depth, the rest have no victim, and `m_victim_tail` (vt), when
      set, is the victim deque at the depth of the next deque to grow. */
  ghost predicate Paired(h: Heap, hs: seq<nat>, ps: seq<nat>, vt: Option<nat>, n: nat)
    requires forall k :: 0 <= k < |hs| ==> hs[k] < |h|
  {
    && n <= |hs| && n <= |ps|
    && (forall i :: 0 <= i < n ==> h[hs[i]].victim == Some(ps[i]))
    && (forall i :: n <= i < |hs| ==> h[hs[i]].victim.None?)
    && (vt.Some? ==> n == |hs| && n < |ps| && vt == Some(ps[n]))
  }

  /** After constructing a worker, `set_victim` establishes the pairing
      with n the shorter chain length. */
  lemma SetVictimEstablishesPairing(h: Heap, w: Worker, v: Worker, hs: seq<nat>, ps: seq<nat>)
    requires Chain(h, hs) && Chain(h, ps) && hs[0] == w.head && ps[0] == v.head
    requires forall i :: 0 <= i < |hs| ==> h[hs[i]].victim.None?
    ensures var (h', w') := SetVictim(h, w, v);
      var n := if |hs| < |ps| then |hs| else |ps|;
      Chain(h', hs) && Chain(h', ps) && Paired(h', hs, ps, w'.victimTail, n)
  {
    SetVictimPairs(h, w, v, hs, ps);
    var (h', w') := SetVictim(h, w, v);
    ChainSameShape(h, h', hs);
    ChainSameShape(h, h', ps);
    var n := if |hs| < |ps| then |hs| else |ps|;
    forall i | n <= i < |hs|
      ensures h'[hs[i]].victim.None?
    {
      assert forall j :: 0 <= j < |hs| && j < |ps| ==> hs[j] != hs[i];
    }
  }

  /** Appending one deque to the tail of hs leaves a disjoint chain ps
      intact and keeps every victim field of the old arena. */
  lemma GrowOne(h: Heap, hs: seq<nat>, ps: seq<nat>)
    requires Chain(h, hs) && Chain(h, ps)
    requires forall i, j :: 0 <= i < |hs| && 0 <= j < |ps| ==> hs[i] != ps[j]
    ensures var h1 := AppendChain(h, Last(hs), 1);
      && |h1| == |h| + 1
      && Chain(h1, hs + [|h|]) && Chain(h1, ps)
      && (forall k :: 0 <= k < |h| ==> h1[k].victim == h[k].victim)
      && h1[|h|].victim.None?
  {
    var tail := Last(hs);
    AppendChainExtends(h, hs, 1);
    var h1 := AppendChain(h, tail, 1);
    assert Range(|h|, 1) == [|h|];
    assert Chain(h1, ps) by {
      forall k | 0 <= k < |ps|
        ensures h1[ps[k]] == h[ps[k]]
      {
        assert ps[k] != tail;
      }
    }
  }

  /** The `grow_tail` step with `m_victim_tail` set: the new deque takes
      the victim deque at its depth and the pairing grows by one. */
  lemma GrowPairedSome(h: Heap, w: Worker, hs: seq<nat>, ps: seq<nat>, n: nat)
    requires Chain(h, hs) && Chain(h, ps)
    requires forall i, j :: 0 <= i < |hs| && 0 <= j < |ps| ==> hs[i] != ps[j]
    requires Paired(h, hs, ps, w.victimTail, n) && w.victimTail.Some?
    ensures var (h', w') := GrowTailFixed(h, w, Last(hs));
      && Chain(h', hs + [|h|]) && Chain(h', ps)
      && Paired(h', hs + [|h|], ps, w'.victimTail, n + 1)
  {
    GrowOne(h, hs, ps);
    var h1 := AppendChain(h, Last(hs), 1);
    var hs1 := hs + [|h|];
    var (h', w') := GrowTailFixed(h, w, Last(hs));
    var v := w.victimTail.value;
    assert v == ps[n] && n == |hs|;
    assert h'[|h|].victim == Some(ps[n]);
    assert SameShape(h1, h');
    ChainSameShape(h1, h', hs1);
    ChainSameShape(h1, h', ps);
    if n + 1 < |ps| {
      assert h1[v].next == Some(ps[n + 1]);
    } else {
      assert h1[v].next.None?;
    }
    forall i | 0 <= i < n + 1
      ensures h'[hs1[i]].victim == Some(ps[i])
    {
      if i < n {
        assert hs1[i] == hs[i] && h'[hs[i]].victim == h[hs[i]].victim;
      }
    }
  }

  /** The `grow_tail` step without `m_victim_tail`: the new deque stays
      unpaired and so does the pairing. */
  lemma GrowPairedNone(h: Heap, w: Worker, hs: seq<nat>, ps: seq<nat>, n: nat)
    requires Chain(h, hs) && Chain(h, ps)
    requires forall i, j :: 0 <= i < |hs| && 0 <= j < |ps| ==> hs[i] != ps[j]
    requires Paired(h, hs, ps, w.victimTail, n) && w.victimTail.None?
    ensures var (h', w') := GrowTailFixed(h, w, Last(hs));
      && Chain(h', hs + [|h|]) && Chain(h', ps)
      && Paired(h', hs + [|h|], ps, w'.victimTail, n)
  {
    GrowOne(h, hs, ps);
    var hs1 := hs + [|h|];
    var (h', w') := GrowTailFixed(h, w, Last(hs));
    forall i | 0 <= i < |hs1|
      ensures i < n ==> h'[hs1[i]].victim == Some(ps[i])
      ensures i >= n ==> h'[hs1[i]].victim.None?
    {
      if i < |hs| {
        assert hs1[i] == hs[i] && h'[hs[i]].victim == h[hs[i]].victim;
      }
    }
  }

  /** The corrected `grow_tail` on the tail of a paired chain keeps the
      pairing, one deeper when `m_victim_tail` was set, and extends the
      chain by exactly the new deque. */
  lemma GrowTailFixedKeepsPairing(h: Heap, w: Worker, hs: seq<nat>, ps: seq<nat>, n: nat)
    requires Chain(h, hs) && Chain(h, ps)
    requires forall i, j :: 0 <= i < |hs| && 0 <= j < |ps| ==> hs[i] != ps[j]
    requires Paired(h, hs, ps, w.victimTail, n)
    ensures var (h', w') := GrowTailFixed(h, w, Last(hs));
      && Chain(h', hs + [|h|]) && Chain(h', ps)
      && Paired(h', hs + [|h|], ps, w'.victimTail, if w.victimTail.Some? then n + 1 else n)
  {
    if w.victimTail.Some? {
      GrowPairedSome(h, w, hs, ps, n);
    } else {
      GrowPairedNone(h, w, hs, ps, n);
    }
  }

  /** Finding: as written, `grow_tail` points the new deque, at depth n,
      at the victim's deque of depth n + 1.  Here the worker's chain is the
      single deque 0 and its victim's chain is 1, 2, 3: `set_victim` pairs
      0 with 1 and leaves `m_victim_tail` at 2, and growing the tail then
      pairs the new deque 4 with 3 instead of 2. */
  lemma AsWrittenGrowTailSkipsDepth()
    ensures
      var h := [Blank.(marked := true), Blank.(next := Some(2), marked := true),
                Blank.(prev := Some(1), next := Some(3)), Blank.(prev := Some(2))];
      var (h1, w1) := SetVictim(h, Worker(0, 0, None, None, None), Worker(1, 1, None, None, None));
      var (h2, w2) := GrowTail(h1, w1, 0);
      && h1[0].victim == Some(1) && w1.victimTail == Some(2)
      && h2[0].next == Some(4) && h2[4].victim == Some(3)
      && GrowTailFixed(h1, w1, 0).0[4].victim == Some(2)
  {
    var h := [Blank.(marked := true), Blank.(next := Some(2), marked := true),
              Blank.(prev := Some(1), next := Some(3)), Blank.(prev := Some(2))];
    var w := Worker(0, 0, None, None, None);
    var v := Worker(1, 1, None, None, None);
    var h0 := h[0 := h[0].(victim := Some(1))];
    assert PairLoop(h0, None, Some(2), 3) == (h0, Some(2));
    assert PairLoop(h, Some(0), Some(1), 4) == (h0, Some(2));
    var h1 := h0 + [Blank.(prev := Some(0))];
    h1 := h1[0 := h1[0].(next := Some(4))];
    assert AppendChain(h0, 0, 1) == h1[0 := h0[0].(next := Some(4))];
  }
}

=== FILE: worker_loops.dfy ===
/** The scheduling loops of `worker` (include/worker.hpp): `steal_loop`,
    which walks the victim's deque chain, `steal_task`, and `local_loop`,
    which drains the worker's own deque.  What `task_deque`'s `take` and
    `steal` find is an input, one outcome per call, and running a task is
    an event in the result. */
module WorkerLoops {
  import opened Common
  import opened WorkerChain

  /** What `task_deque::steal` reports: the task, if any, and the
      `was_empty` and `was_null` flags. */
  datatype Steal<T> = Steal(task: Option<T>, wasEmpty: bool, wasNull: bool)

  /** What `task_deque::take` reports: the task, if any, and `nstolen`. */
  datatype Take<T> = Take(task: Option<T>, nstolen: nat)

  /** What the worker does that others can see: run a task with a deque
      as its child deque, or hand a stolen task's deque `return_stolen`. */
  datatype Event<T> = Process(task: T, deque: nat) | ReturnStolen(deque: nat)

  /** The navigation step of `steal_loop` (worker.hpp:206-222): stay after
      a successful steal; on `was_empty` move to `next` when there is one;
      then on `was_null` move to `prev` when there is one. */
  function Navigate<T>(h: Heap, vtail: nat, s: Steal<T>): nat
  {
    if s.task.Some? then vtail
    else
      var v1 := if s.wasEmpty && vtail < |h| && h[vtail].next.Some? then h[vtail].next.value else vtail;
      if s.wasNull && v1 < |h| && h[v1].prev.Some? then h[v1].prev.value else v1
  }

  /** The same step on depths: from depth i of a chain of length len, one
      deeper on an empty deque, one shallower on a null one, never past
      either end. */
  function NavigateDepth<T>(i: nat, len: nat, s: Steal<T>): nat
  {
    if s.task.Some? then i
    else
      var j := if s.wasEmpty && i + 1 < len then i + 1 else i;
      if s.wasNull && j > 0 then j - 1 else j
  }

  /** On a well-formed chain, following pointers is moving by depth: the
      thief never leaves the victim's chain. */
  lemma NavigateFollowsChain<T>(h: Heap, cs: seq<nat>, i: nat, s: Steal<T>)
    requires Chain(h, cs) && i < |cs|
    ensures NavigateDepth(i, |cs|, s) < |cs|
    ensures Navigate(h, cs[i], s) == cs[NavigateDepth(i, |cs|, s)]
  {
    var j := if s.wasEmpty && i + 1 < |cs| then i + 1 else i;
    if i + 1 < |cs| {
      assert h[cs[i]].next == Some(cs[i + 1]);
    } else {
      assert h[cs[i]].next.None?;
    }
    if j > 0 {
      assert h[cs[j]].prev == Some(cs[j - 1]);
    } else {
      assert h[cs[j]].prev.None?;
    }
  }

  /** `steal_loop` (worker.hpp:184-224) from deque `vtail`, one steal
      outcome per turn until the worker is stopped: a stolen task is run
      with the worker's head deque as child deque and then handed back.
      Returns the events and the deque the thief ends on. */
  function StealLoop<T>(h: Heap, head: nat, vtail: nat, steals: seq<Steal<T>>): (seq<Event<T>>, nat)
    decreases |steals|
  {
    if |steals| == 0 then ([], vtail)
    else
      var s := steals[0];
      if s.task.Some? then
        var r := StealLoop(h, head, vtail, steals[1..]);
        ([Process(s.task.value, head), ReturnStolen(vtail)] + r.0, r.1)
      else StealLoop(h, head, Navigate(h, vtail, s), steals[1..])
  }

  /** The same loop on depths of the victim's chain cs. */
  function StealDepths<T>(cs: seq<nat>, head: nat, i: nat, steals: seq<Steal<T>>): (seq<Event<T>>, nat)
    requires i < |cs|
    decreases |steals|
  {
    if |steals| == 0 then ([], i)
    else
      var s := steals[0];
      var r := StealDepths(cs, head, NavigateDepth(i, |cs|, s), steals[1..]);
      if s.task.Some? then ([Process(s.task.value, head), ReturnStolen(cs[i])] + r.0, r.1)
      else r
  }

  /** `steal_loop` on a well-formed victim chain behaves as the walk over
      depths: every stolen task is run and then returned to the deque it
      came from, and the thief ends on a deque of the chain. */
  lemma {:induction false} StealLoopFollowsChain<T>(h: Heap, cs: seq<nat>, head: nat, i: nat, steals: seq<Steal<T>>)
    requires Chain(h, cs) && i < |cs|
    ensures var r := StealLoop(h, head, cs[i], steals);
      var d := StealDepths(cs, head, i, steals);
      r.0 == d.0 && d.1 < |cs| && r.1 == cs[d.1]
    decreases |steals|
  {
    if |steals| > 0 {
      var s := steals[0];
      NavigateFollowsChain(h, cs, i, s);
      StealLoopFollowsChain(h, cs, head, NavigateDepth(i, |cs|, s), steals[1..]);
    }
  }

  /** The tasks the steals obtained, in order. */
  function Stolen<T>(steals: seq<Steal<T>>): seq<T>
  {
    if |steals| == 0 then []
    else (if steals[0].task.Some? then [steals[0].task.value] else []) + Stolen(steals[1..])
  }

  /** e holds two events per task of st, in order: the task run with
      `head` as child, then one `return_stolen` to a deque of cs. */
  ghost predicate PairsOf<T>(e: seq<Event<T>>, st: seq<T>, head: nat, cs: seq<nat>)
  {
    && |e| == 2 * |st|
    && forall k :: 0 <= k < |st| ==>
         e[2 * k] == Process(st[k], head) && e[2 * k + 1].ReturnStolen? && e[2 * k + 1].deque in cs
  }

  /** One more stolen task in front keeps the pairing. */
  lemma PairsCons<T>(e: seq<Event<T>>, st: seq<T>, head: nat, cs: seq<nat>, x: T, d: nat)
    requires PairsOf(e, st, head, cs) && d in cs
    ensures PairsOf([Process(x, head), ReturnStolen(d)] + e, [x] + st, head, cs)
  {
    var e' := [Process(x, head), ReturnStolen(d)] + e;
    var st' := [x] + st;
    forall k | 0 <= k < |st'|
      ensures e'[2 * k] == Process(st'[k], head) && e'[2 * k + 1].ReturnStolen? && e'[2 * k + 1].deque in cs
    {
      if k > 0 {
        assert e'[2 * k] == e[2 * (k - 1)];
        assert e'[2 * k + 1] == e[2 * (k - 1) + 1];
      }
    }
  }

  /** Each stolen task is run exactly once, in the order stolen, with the
      head deque as child, and is followed at once by exactly one
      `return_stolen` to a deque of the victim's chain: two events per
      stolen task and no others. */
  lemma StealDepthsPairs<T>(cs: seq<nat>, head: nat, i: nat, steals: seq<Steal<T>>)
    requires i < |cs|
    ensures var e := StealDepths(cs, head, i, steals).0;
      && |e| == 2 * |Stolen(steals)|
      && forall k :: 0 <= k < |Stolen(steals)| ==>
           e[2 * k] == Process(Stolen(steals)[k], head) && e[2 * k + 1].ReturnStolen? && e[2 * k + 1].deque in cs
  {
    StealDepthsPairsOf(cs, head, i, steals);
  }

  /** The induction behind `StealDepthsPairs`. */
  lemma {:induction false} StealDepthsPairsOf<T>(cs: seq<nat>, head: nat, i: nat, steals: seq<Steal<T>>)
    requires i < |cs|
    ensures PairsOf(StealDepths(cs, head, i, steals).0, Stolen(steals), head, cs)
    decreases |steals|
  {
    if |steals| > 0 {
      var s := steals[0];
      var j := NavigateDepth(i, |cs|, s);
      StealDepthsPairsOf(cs, head, j, steals[1..]);
      var r := StealDepths(cs, head, j, steals[1..]);
      if s.task.Some? {
        assert Stolen(steals) == [s.task.value] + Stolen(steals[1..]);
        assert StealDepths(cs, head, i, steals).0 == [Process(s.task.value, head), ReturnStolen(cs[i])] + r.0;
        PairsCons(r.0, Stolen(steals[1..]), head, cs, s.task.value, cs[i]);
      } else {
        assert Stolen(steals) == Stolen(steals[1..]);
        assert StealDepths(cs, head, i, steals).0 == r.0;
      }
    }
  }

  /** `steal_task` (worker.hpp:283-301): steals from the victim deque of
      `tail`; returns the task and the new value of `*victim`. */
  function StealTask<T>(h: Heap, tail: nat, s: Steal<T>, victim: Option<nat>): (r: (Option<T>, Option<nat>))
    requires tail < |h|
    ensures r.0.Some? <==> h[tail].victim.Some? && s.task.Some?
    ensures r.0.Some? ==> r.0 == s.task && r.1 == h[tail].victim
    ensures r.0.None? ==> r.1 == victim
  {
    match h[tail].victim
    case None => (None, victim)
    case Some(v) => if s.task.Some? then (s.task, Some(v)) else (None, victim)
  }

  /** One turn of `local_loop`: what `take` finds and, if it finds no task
      and tasks were stolen from the deque, what `steal_task`'s steal
      finds. */
  datatype Round<T> = Round(take: Take<T>, steal: Steal<T>)

  /** The state `local_loop` ends in: the arena, the worker, the events,
      whether it returned, and its `victim` variable. */
  datatype LocalRun<T> = LocalRun(h: Heap, w: Worker, events: seq<Event<T>>, exited: bool, victim: Option<nat>)

  function Prepend<T>(e: seq<Event<T>>, r: LocalRun<T>): LocalRun<T>
  {
    r.(events := e + r.events)
  }

  /** `local_loop` (worker.hpp:226-281) from the top of its loop with
      pending task t and `victim`, one round per `take`.  Running out of
      rounds ends the model without the loop having returned. */
  function LocalLoop<T>(h: Heap, w: Worker, tail: nat, t: Option<T>, victim: Option<nat>, rounds: seq<Round<T>>): LocalRun<T>
    requires tail < |h|
    decreases |rounds|
  {
    var g := if t.Some? then GrowTailFixed(h, w, tail) else (h, w);
    var ev := if t.Some? then [Process(t.value, g.0[tail].next.value)] + (if victim.Some? then [ReturnStolen(victim.value)] else []) else [];
    var victim1 := if t.Some? then None else victim;
    if |rounds| == 0 then LocalRun(g.0, g.1, ev, false, victim1)
    else
      var rd := rounds[0];
      if rd.take.task.Some? then Prepend(ev, LocalLoop(g.0, g.1, tail, rd.take.task, victim1, rounds[1..]))
      else if rd.take.nstolen == 0 then LocalRun(g.0, g.1, ev, true, victim1)
      else
        var st := StealTask(g.0, tail, rd.steal, victim1);
        Prepend(ev, LocalLoop(g.0, g.1, tail, st.0, st.1, rounds[1..]))
  }

  /** `local_loop(tail)` as called: nothing pending, no victim. */
  function LocalLoopRun<T>(h: Heap, w: Worker, tail: nat, rounds: seq<Round<T>>): LocalRun<T>
    requires tail < |h|
  {
    LocalLoop(h, w, tail, None, None, rounds)
  }

  /** `take` found no task and nothing was stolen from the deque. */
  predicate Exits<T>(rd: Round<T>)
  {
    rd.take.task.None? && rd.take.nstolen == 0
  }

  /** The events one round contributes when tail's victim deque is v and
      its child deque is n: a taken task runs; a task stolen from v runs
      and is then returned to v. */
  function RoundEvents<T>(rd: Round<T>, v: Option<nat>, n: nat): seq<Event<T>>
  {
    if rd.take.task.Some? then [Process(rd.take.task.value, n)]
    else if rd.take.nstolen == 0 then []
    else if v.Some? && rd.steal.task.Some? then [Process(rd.steal.task.value, n), ReturnStolen(v.value)]
    else []
  }

  /** The rounds up to the first that exits, round by round; the flag says
      whether such a round came. */
  function Expected<T>(rounds: seq<Round<T>>, v: Option<nat>, n: nat): (seq<Event<T>>, bool)
    decreases |rounds|
  {
    if |rounds| == 0 then ([], false)
    else if Exits(rounds[0]) then ([], true)
    else
      var r := Expected(rounds[1..], v, n);
      (RoundEvents(rounds[0], v, n) + r.0, r.1)
  }

  /** The deque `tail->get_next()` is, or will be once `grow_tail` has
      appended it. */
  function ChildOf(h: Heap, tail: nat): nat
    requires tail < |h|
  {
    if h[tail].next.Some? then h[tail].next.value else |h|
  }

  /** The events owed for a task pending at the top of the loop. */
  function Pending<T>(t: Option<T>, victim: Option<nat>, n: nat): seq<Event<T>>
  {
    if t.Some? then [Process(t.value, n)] + (if victim.Some? then [ReturnStolen(victim.value)] else []) else []
  }

  lemma LocalLoopMatches<T>(h: Heap, w: Worker, tail: nat, t: Option<T>, victim: Option<nat>, rounds: seq<Round<T>>)
    requires tail < |h|
    requires victim.Some? ==> t.Some? && victim == h[tail].victim
    ensures var r := LocalLoop(h, w, tail, t, victim, rounds);
      var e := Expected(rounds, h[tail].victim, ChildOf(h, tail));
      && r.events == Pending(t, victim, ChildOf(h, tail)) + e.0
      && r.exited == e.1
      && (r.exited ==> r.victim.None?)
  {
    LoopMatchesFrom(h, w, tail, t, victim, rounds);
  }

  /** `LocalLoopMatches` as a predicate of the run r. */
  ghost predicate LoopMatches<T>(h: Heap, tail: nat, t: Option<T>, victim: Option<nat>, rounds: seq<Round<T>>, r: LocalRun<T>)
    requires tail < |h|
  {
    var e := Expected(rounds, h[tail].victim, ChildOf(h, tail));
    && r.events == Pending(t, victim, ChildOf(h, tail)) + e.0
    && r.exited == e.1
    && (r.exited ==> r.victim.None?)
  }

  /** The induction behind `LocalLoopMatches`. */
  lemma {:induction false} LoopMatchesFrom<T>(h: Heap, w: Worker, tail: nat, t: Option<T>, victim: Option<nat>, rounds: seq<Round<T>>)
    requires tail < |h|
    requires victim.Some? ==> t.Some? && victim == h[tail].victim
    ensures LoopMatches(h, tail, t, victim, rounds, LocalLoop(h, w, tail, t, victim, rounds))
    decreases |rounds|
  {
    if |rounds| == 0 || Exits(rounds[0]) {
      LoopMatchesStop(h, w, tail, t, victim, rounds);
    } else {
      var g := if t.Some? then GrowTailFixed(h, w, tail) else (h, w);
      var victim1 := if t.Some? then None else victim;
      var rd := rounds[0];
      if rd.take.task.Some? {
        LoopMatchesFrom(g.0, g.1, tail, rd.take.task, None, rounds[1..]);
        LoopMatchesTake(h, w, tail, t, victim, rounds, g);
      } else {
        var st := StealTask(g.0, tail, rd.steal, victim1);
        LoopMatchesFrom(g.0, g.1, tail, st.0, st.1, rounds[1..]);
        LoopMatchesSteal(h, w, tail, t, victim, rounds, g, st);
      }
    }
  }

  /** A loop that runs out of rounds or meets an exiting round matches. */
  lemma LoopMatchesStop<T>(h: Heap, w: Worker, tail: nat, t: Option<T>, victim: Option<nat>, rounds: seq<Round<T>>)
    requires tail < |h|
    requires victim.Some? ==> t.Some?
    requires |rounds| == 0 || Exits(rounds[0])
    ensures LoopMatches(h, tail, t, victim, rounds, LocalLoop(h, w, tail, t, victim, rounds))
  {
    var g := if t.Some? then GrowTailFixed(h, w, tail) else (h, w);
    assert ChildOf(g.0, tail) == ChildOf(h, tail);
  }

  /** A round whose `take` finds a task carries the match for the rest of
      the loop back to this round. */
  lemma LoopMatchesTake<T>(h: Heap, w: Worker, tail: nat, t: Option<T>, victim: Option<nat>, rounds: seq<Round<T>>, g: (Heap, Worker))
    requires tail < |h|
    requires victim.Some? ==> t.Some? && victim == h[tail].victim
    requires |rounds| > 0 && rounds[0].take.task.Some?
    requires g == if t.Some? then GrowTailFixed(h, w, tail) else (h, w)
    requires LoopMatches(g.0, tail, rounds[0].take.task, None, rounds[1..], LocalLoop(g.0, g.1, tail, rounds[0].take.task, None, rounds[1..]))
    ensures LoopMatches(h, tail, t, victim, rounds, LocalLoop(h, w, tail, t, victim, rounds))
  {
    var n := ChildOf(h, tail);
    assert g.0[tail].victim == h[tail].victim && ChildOf(g.0, tail) == n;
    var victim1 := if t.Some? then None else victim;
    assert victim1 == None;
    var r' := LocalLoop(g.0, g.1, tail, rounds[0].take.task, None, rounds[1..]);
    assert LocalLoop(h, w, tail, t, victim, rounds) == Prepend(Pending(t, victim, n), r');
    var rest := Expected(rounds[1..], h[tail].victim, n);
    assert Expected(rounds, h[tail].victim, n) == (RoundEvents(rounds[0], h[tail].victim, n) + rest.0, rest.1);
    assert Pending(rounds[0].take.task, None, n) == RoundEvents(rounds[0], h[tail].victim, n);
  }

  /** A round whose `take` finds nothing, with tasks stolen from the deque,
      carries the match for the rest of the loop back to this round. */
  lemma LoopMatchesSteal<T>(h: Heap, w: Worker, tail: nat, t: Option<T>, victim: Option<nat>, rounds: seq<Round<T>>, g: (Heap, Worker), st: (Option<T>, Option<nat>))
    requires tail < |h|
    requires victim.Some? ==> t.Some? && victim == h[tail].victim
    requires |rounds| > 0 && rounds[0].take.task.None? && rounds[0].take.nstolen > 0
    requires g == if t.Some? then GrowTailFixed(h, w, tail) else (h, w)
    requires st == StealTask(g.0, tail, rounds[0].steal, if t.Some? then None else victim)
    requires LoopMatches(g.0, tail, st.0, st.1, rounds[1..], LocalLoop(g.0, g.1, tail, st.0, st.1, rounds[1..]))
    ensures LoopMatches(h, tail, t, victim, rounds, LocalLoop(h, w, tail, t, victim, rounds))
  {
    var n := ChildOf(h, tail);
    assert g.0[tail].victim == h[tail].victim && ChildOf(g.0, tail) == n;
    var r' := LocalLoop(g.0, g.1, tail, st.0, st.1, rounds[1..]);
    assert LocalLoop(h, w, tail, t, victim, rounds) == Prepend(Pending(t, victim, n), r');
    var rest := Expected(rounds[1..], h[tail].victim, n);
    assert Expected(rounds, h[tail].victim, n) == (RoundEvents(rounds[0], h[tail].victim, n) + rest.0, rest.1);
    RoundIsPending(g.0, tail, rounds[0], if t.Some? then None else victim, n);
  }

  /** The events a non-exiting round leaves pending at the top of the next
      turn are the round's events. */
  lemma RoundIsPending<T>(h: Heap, tail: nat, rd: Round<T>, victim1: Option<nat>, n: nat)
    requires tail < |h| && victim1.None? && !Exits(rd)
    ensures var nt := if rd.take.task.Some? then (rd.take.task, victim1) else StealTask(h, tail, rd.steal, victim1);
      Pending(nt.0, nt.1, n) == RoundEvents(rd, h[tail].victim, n)
  {
  }

  /** The loop returns exactly when some round's `take` yields no task
      with `nstolen == 0`. */
  lemma {:induction false} ExpectedExits<T>(rounds: seq<Round<T>>, v: Option<nat>, n: nat)
    ensures Expected(rounds, v, n).1 <==> exists k :: 0 <= k < |rounds| && Exits(rounds[k])
    decreases |rounds|
  {
    if |rounds| > 0 && !Exits(rounds[0]) {
      ExpectedExits(rounds[1..], v, n);
      if exists k :: 0 <= k < |rounds| && Exits(rounds[k]) {
        var k :| 0 <= k < |rounds| && Exits(rounds[k]);
        assert Exits(rounds[1..][k - 1]);
      }
      if exists k :: 0 <= k < |rounds[1..]| && Exits(rounds[1..][k]) {
        var k :| 0 <= k < |rounds[1..]| && Exits(rounds[1..][k]);
        assert Exits(rounds[k + 1]);
      }
    } else if |rounds| > 0 {
      assert Exits(rounds[0]);
    }
  }

  /** `local_loop` as called: its events are the rounds' events up to the
      first round with no task and `nstolen == 0`, where it returns, with
      `victim` cleared. */
  lemma LocalLoopRunSpec<T>(h: Heap, w: Worker, tail: nat, rounds: seq<Round<T>>)
    requires tail < |h|
    ensures var r := LocalLoopRun(h, w, tail, rounds);
      && r.events == Expected(rounds, h[tail].victim, ChildOf(h, tail)).0
      && (r.exited <==> exists k :: 0 <= k < |rounds| && Exits(rounds[k]))
      && (r.exited ==> r.victim.None?)
  {
    LocalLoopMatches(h, w, tail, None, None, rounds);
    ExpectedExits(rounds, h[tail].victim, ChildOf(h, tail));
  }
}
